=== FILE: README.md ===
# EmailService: mailbox sync pass, message list and account edit

A Dafny model of the core of the Blazor IMAP client's `EmailService`:

- the sync pass `SyncEmailsAsync`. It finds the account, opens the IMAP inbox, picks a window of UIDs, fetches their summaries and downloads each message. It checks every message against the stored emails, stages the new ones with progress reports, saves the batch, then advances the account's `LastSync`;
- the content helpers `GetTextContent` and `GetSnippet`;
- the message list `GetEmailsAsync`, its count `GetEmailsCountAsync`, and `MarkEmailAsReadAsync`;
- the account edit `UpdateEmailAccountAsync`.

The database is an immutable `Store`, a sequence of `Email` and a sequence of `EmailAccount`. Every operation is a pure function from the old store to a result and a new store. The remote server is a value:

- `Session` is `Unreachable` when connecting, authenticating, opening the inbox or listing the UIDs throws;
- otherwise it is a `Mailbox`, which holds the UID list, the summary fetch as a function of the window, and the download result for each UID.

`Guid.NewGuid()` is a token stream `tokens: nat -> string`, and the k-th draw gets `tokens(k)`. `DateTime.UtcNow` is a parameter `now`. The cipher used by the account edit is a parameter `encrypt`.

Modules follow the service's parts:

- `Models`: the entities, with the unique MessageId index as a predicate;
- `Remote`: what the IMAP server yields;
- `Content`: text extraction and snippet;
- `Window`: UID selection;
- `Normalizer`: record construction;
- `Dedup`: the "already stored?" query;
- `Sync`: the pass itself;
- `SyncLemmas`: properties of the pass;
- `SyncCorrected`: the finding below;
- `Queries`: list, count and mark-read;
- `Accounts`: the account edit.

Four behaviours of the code are easy to miss; the model follows the code in each:

- An empty local store does not end the pass. An incremental sync takes the last 50 UIDs whether or not emails are stored (EmailService.cs:214-227).
- An empty Message-ID header is kept, because `??` only replaces a missing one (EmailService.cs:263).
- The `current` of a progress report counts staged emails, not summary positions (EmailService.cs:294-295).
- When the batch save throws, the pass still returns the number of emails it staged, though none was stored (EmailService.cs:306, 314-319).

## Model

| member | source | states |
|---|---|---|
| Models.IndexOfKey | BlazorEmailApp/Services/EmailService.cs:160 | the key lookup behind `FindAsync` on either table: the first row with the key exactly when one exists, `None` exactly when none has it |
| Models.FindAccount | BlazorEmailApp/Services/EmailService.cs:170-171 | finds the account with the given key exactly when one exists; `None` means no account has that key |
| Window.MostRecent | BlazorEmailApp/Services/EmailService.cs:210-212 | the newest-first query's first row: absent exactly for an empty table, otherwise a stored email no older than any other |
| Window.SelectWindow | BlazorEmailApp/Services/EmailService.cs:198-228 | the window is the suffix of the UID list of length min(n,1000) for a full sync and min(n,50) for an incremental one, so it is non-empty whenever the inbox is |
| Window.WindowIgnoresStore | BlazorEmailApp/Services/EmailService.cs:207-228 | both incremental branches agree, so the stored emails never change the window |
| Window.WindowIsOrderedSubsequence | BlazorEmailApp/Services/EmailService.cs:200-228 | position k of the window is position n−m+k of the inbox, m being the window length: inbox order is kept |
| Content.StripTags | BlazorEmailApp/Services/EmailService.cs:332 | removing `<…>` runs never makes the text longer |
| Content.StripTagsWithoutOpen | BlazorEmailApp/Services/EmailService.cs:332 | a text without '<' is returned unchanged |
| Content.StripTagsIsTagFree | BlazorEmailApp/Services/EmailService.cs:332 | after stripping, no '<' is followed by a '>', so no match of the pattern is left |
| Content.StripTagsOfTagFree | BlazorEmailApp/Services/EmailService.cs:332 | a text with no match of the pattern is returned unchanged |
| Content.StripTagsIdempotent | BlazorEmailApp/Services/EmailService.cs:332 | stripping a second time changes nothing |
| Content.StripTagsRemovesTag | BlazorEmailApp/Services/EmailService.cs:332 | after '<'-free text, a `<`…`>` run whose inside has no '>' is dropped whole, and the scan resumes right after that '>' |
| Content.TextContentPolicy | BlazorEmailApp/Services/EmailService.cs:322-336 | a non-empty text body is returned unchanged. Otherwise the result comes from the HTML body: tag-free, no longer than it, equal to it when it has no '<', and stable under another stripping. With neither body the result is "" |
| Content.Snippet | BlazorEmailApp/Services/EmailService.cs:338-342 | content of at most 200 characters is its own snippet. Longer content gives its first 200 characters followed by "...", 203 in all. No snippet is longer than 203 |
| Content.SnippetIdempotent | BlazorEmailApp/Services/EmailService.cs:338-342 | the snippet of a snippet is the snippet itself |
| Normalizer.NewRecordShape | BlazorEmailApp/Services/EmailService.cs:263-289 | a new record is unread and unsaved. Its subject is the header subject or "". Its MessageId is the header id whenever the header exists, even empty, and the token only when the header is missing. HasAttachments holds iff there is an attachment. Its date is the header date without the offset. Its snippet comes from its own content |
| Dedup.FindExisting | BlazorEmailApp/Services/EmailService.cs:266-272 | finds a stored email exactly when one matches on MessageId or on (From, Subject ?? "", Date.DateTime) |
| Sync.ProcessMessage | BlazorEmailApp/Services/EmailService.cs:251-303 | an invalid UID, and only that, is skipped as invalid. A failed download is skipped. A message matched in the saved table is skipped as already stored. A staged email is the record built from its message and matches no saved email. A token is drawn exactly when a downloaded message lacks a Message-ID |
| Sync.ProcessAll | BlazorEmailApp/Services/EmailService.cs:249-304 | the loop only appends. It stages at most one email per summary and adds exactly one progress report per staged email |
| Sync.RunLoop | BlazorEmailApp/Services/EmailService.cs:248-304 | the imperative foreach loop computes exactly the fold `ProcessAll` |
| Sync.Prepare | BlazorEmailApp/Services/EmailService.cs:170-244 | the pass reaches its loop exactly when the account exists, the session opens, the inbox is non-empty, and the summary fetch for the window succeeds with a non-empty result |
| Sync.AssignIds | BlazorEmailApp/Services/EmailService.cs:306 | the save gives keys only to the inserted rows and copies every other field. Every key is at least the next free key, and keys increase in insertion order, so no two inserted rows share one |
| Sync.FinishPass | BlazorEmailApp/Services/EmailService.cs:246-319 | a failed save leaves the store as it was. A successful save appends exactly `count` rows after the untouched old rows and sets only that account's `LastSync`. The trace is the (0,total) report plus one report per staged email |
| Sync.SyncEmails | BlazorEmailApp/Services/EmailService.cs:168-320 | `LastSync` advances only when the batch save succeeded, and then the new rows number exactly the returned count. Without a successful save the store is unchanged. With no progress report the count is 0. Otherwise the first report is (0,total) and count ≤ total |
| SyncLemmas.SyncEarlyReturns | BlazorEmailApp/Services/EmailService.cs:170-244 | a missing account, a failing session, an empty inbox, or a failing or empty summary fetch each return 0 with no report and no change |
| SyncLemmas.FailedSummaryIsInert | BlazorEmailApp/Services/EmailService.cs:249-303 | a summary with an invalid UID, or whose download throws, has exactly the effect of its absence, and the rest of the loop runs unchanged |
| SyncLemmas.StagedAtMostDownloadable | BlazorEmailApp/Services/EmailService.cs:249-304 | the number of staged emails is at most the number of summaries with a valid UID whose download succeeded |
| SyncLemmas.TraceReportsStaged | BlazorEmailApp/Services/EmailService.cs:291-295 | the k-th report after the first is (k+1, total) with the k-th staged email's subject |
| SyncLemmas.StagedAreNew | BlazorEmailApp/Services/EmailService.cs:263-291 | every staged email differs from every saved email on MessageId and on the (From, Subject, ReceivedDate) triple, and is unread |
| SyncLemmas.SyncProgressOrder | BlazorEmailApp/Services/EmailService.cs:246-295 | the reports start with "found" at (0,total). The k-th has current k, so current strictly increases, stays ≤ total, and total is the same in every report |
| SyncLemmas.SyncAddsOnlyNew | BlazorEmailApp/Services/EmailService.cs:263-310 | stored rows are never changed. Every added row is new to the old table on id and triple, is unread, and has a key above every old key |
| SyncLemmas.CommittedStore | BlazorEmailApp/Services/EmailService.cs:306-310 | a successful save has no unique-index conflict. It stores the old rows followed by the staged ones with fresh keys, and marks that account synced |
| SyncLemmas.SyncKeepsUniqueIds | BlazorEmailApp/Services/EmailService.cs:306-317 | a pass keeps MessageIds unique in the table |
| SyncLemmas.CommitKeepsUniqueIds | BlazorEmailApp/Data/AppDbContext.cs:19 | an insert the unique index accepts leaves MessageIds unique |
| SyncLemmas.PassRecognisesAll | BlazorEmailApp/Services/EmailService.cs:263-291 | given fresh tokens (no token drawn in the pass equals a saved MessageId, as `Guid.NewGuid()` values do not), after the loop the saved plus staged emails match every downloadable message on its triple or its header id |
| SyncLemmas.SecondPassFindsNothing | BlazorEmailApp/Services/EmailService.cs:263-310 | after a pass whose save succeeded, a second pass over the same mailbox in the same mode stages nothing, returns 0, keeps the emails and completes. This needs the first pass's tokens to be fresh |
| SyncCorrected.DuplicateIdLosesBatch | BlazorEmailApp/Services/EmailService.cs:266-317 | as written, an inbox holding one message twice makes the pass stage both copies. The save then fails, nothing is stored, `LastSync` stays unset, and 2 is returned |
| SyncCorrected.CorrectedIdsDistinct | BlazorEmailApp/Services/EmailService.cs:266-291 | with dedup against saved plus staged emails, staged MessageIds are new to the table and pairwise distinct |
| SyncCorrected.CorrectedPassCommits | BlazorEmailApp/Services/EmailService.cs:266-310 | with the corrected dedup, every pass that reaches its loop saves its batch and advances `LastSync`. The count equals the number of rows added, and MessageIds stay unique |
| SyncCorrected.CorrectedKeepsOneCopy | BlazorEmailApp/Services/EmailService.cs:266-310 | on the inbox holding one message twice, the corrected pass stores one email and returns 1 |
| Queries.Wrap32 | BlazorEmailApp/Services/EmailService.cs:120 | unchecked `int` arithmetic: in-range values are kept, and others are reduced modulo 2^32 into range |
| Queries.ToLower | BlazorEmailApp/Services/EmailService.cs:104 | lower-casing keeps the length and leaves no upper-case ASCII letter. Each input character is the result's character or that character's upper-case form, which fixes the result |
| Queries.ToLowerSpells | BlazorEmailApp/Services/EmailService.cs:104 | lower-casing gives a lower-case word exactly when the string spells that word with each letter in either case |
| Queries.FilterSpellings | BlazorEmailApp/Services/EmailService.cs:104-116 | for every string: it selects `Unread` iff it spells "unread" in some letter case, `Read` iff it spells "read", and everything otherwise, "all" included |
| Queries.Where | BlazorEmailApp/Services/EmailService.cs:106-115 | the filtered list holds exactly the stored emails that satisfy the filter, each no more often than in the table |
| Queries.OrderByDateDesc | BlazorEmailApp/Services/EmailService.cs:119 | the ordered list is a permutation of its input, newest first |
| Queries.SkipTake | BlazorEmailApp/Services/EmailService.cs:120-121 | Skip then Take with SQLite semantics: at most `limit` items when `limit` ≥ 0, and sortedness is kept. For offset and limit ≥ 0 the result is the slice [offset, offset+limit) clamped to the list. A negative offset counts as 0, so the result is the first `limit` items. A negative limit means no limit, so the result runs from the clamped offset to the end |
| Queries.GetEmails | BlazorEmailApp/Services/EmailService.cs:93-123 | every email of a page is stored and satisfies the filter. A page has at most `pageSize` emails when `pageSize` ≥ 0 and is sorted newest first |
| Queries.GetEmailsCount | BlazorEmailApp/Services/EmailService.cs:125-151 | the count never exceeds the table size |
| Queries.ListingLength | BlazorEmailApp/Services/EmailService.cs:125-150 | the count is the length of the filtered list that `GetEmails` pages, for every filter and `accountId` |
| Queries.AccountIdIgnored | BlazorEmailApp/Services/EmailService.cs:97-101 | the `accountId` argument changes neither the page nor the count |
| Queries.ReadUnreadPartition | BlazorEmailApp/Services/EmailService.cs:136-150 | the read count plus the unread count equals the count for "all", which is the table size |
| Queries.PageIsSlice | BlazorEmailApp/Services/EmailService.cs:118-122 | with a non-negative offset and page size, a page is the run of `pageSize` emails of the newest-first filtered list that starts at the offset. The count is that list's length |
| Queries.PageOffsetWithoutOverflow | BlazorEmailApp/Services/EmailService.cs:120 | when page·pageSize fits in an `int`, page p starts after p−1 full pages |
| Queries.NegativeOffsetIsFirstPage | BlazorEmailApp/Services/EmailService.cs:93-122 | whenever the wrapped offset `(page-1)*pageSize` is negative, the page returns the same emails as page 1. Examples are page ≤ 0 with (page−1)·pageSize ≥ −2^31, and a product that wrapped negative. A page number far enough below 0 wraps to a positive offset and gets that slice instead |
| Queries.OverflowedPagesAreFirstPage | BlazorEmailApp/Services/EmailService.cs:120 | page 0 of size 20, and page 2^30 of size 4 (whose offset wraps to −4), both return page 1 |
| Queries.MarkEmailAsRead | BlazorEmailApp/Services/EmailService.cs:158-166 | returns true iff some email has the key. Without such an email nothing changes. Otherwise only the `IsRead` of an email with that key changes, and it becomes true |
| Queries.MarkEmailAsReadIdempotent | BlazorEmailApp/Services/EmailService.cs:158-166 | marking an email read twice is the same as marking it once |
| Accounts.UpdateEmailAccount | BlazorEmailApp/Services/EmailService.cs:45-63 | returns false with no change iff no account has the key. The save throws, and nothing changes, iff the new address differs from the account's own and another account already has it. Otherwise true is returned and only that account changes: it takes the five settings and keeps its key, creation time and `LastSync`. Its password is re-encrypted exactly when a non-empty one is given |
| Accounts.UpdateKeepsUniqueAddresses | BlazorEmailApp/Data/AppDbContext.cs:35 | an edit the unique address index accepts leaves addresses unique |
| Accounts.TakenAddressThrows | BlazorEmailApp/Services/EmailService.cs:61 | moving an account to another account's address throws and saves nothing |
| Accounts.UpdateIdempotent | BlazorEmailApp/Services/EmailService.cs:45-63 | saving the same edit twice gives the same accounts as saving it once |
| Accounts.UpdateWithSameSettingsIsNoOp | BlazorEmailApp/Services/EmailService.cs:45-63 | re-saving an account's own settings without a password changes nothing |

## Left out

- IMAP I/O is not modelled: `ConnectAsync`, `AuthenticateAsync`, `OpenAsync`, `SearchAsync`, `FetchAsync`, `GetMessageAsync` and `DisconnectAsync`. Their outcomes are inputs: `Session`, `Mailbox.summaries` and `Mailbox.fetch`. `DisconnectAsync` throwing after the save only produces a log line, so it is not modelled.
- `TestConnectionAsync` (EmailService.cs:75-91) is not modelled. It is only a connect, authenticate and disconnect attempt reduced to a boolean.
- MimeKit parsing is taken as given: `TextBody`, `HtmlBody`, `Attachments`, `MessageId`, `Subject`, `Date`. The address lists' `ToString` is a given string in `RawMessage`.
- The cipher is left out. Services/EncryptionService.cs is not part of this model. `Decrypt` only feeds authentication, which `Session` abstracts. `Encrypt` is the parameter `encrypt`, and no round-trip is claimed.
- Entity Framework Core and SQLite are not modelled beyond four points: the unique MessageId index (`InsertConflicts`), the unique account address index (`Accounts.AddressTaken`), key assignment and `LIMIT`/`OFFSET`. Column lengths and the non-unique indexes on `ReceivedDate` and `IsRead` are out. So are transactions beyond "a failed save changes nothing", and the second `SaveChangesAsync` (line 310), which the model assumes succeeds.
- New keys are assumed to be one past the largest key in use, numbered consecutively. The SQLite provider makes integer keys AUTOINCREMENT, which is one past the largest key ever used. The two rules agree here because nothing in this core deletes an email.
- Each operation is modelled against a database context with no pending changes. The context is scoped (Program.cs:13-17), so in an interactive server app one context serves a whole circuit. After a failed batch save (line 306) the staged emails stay tracked as Added. Every later `SaveChangesAsync` on that context inserts them again and throws: in `MarkEmailAsReadAsync` (line 164), in `UpdateEmailAccountAsync` (line 61) and in the next sync (line 306). The model does not carry that tracked state from one call to the next.
- Program.cs is out apart from the context's lifetime above: it is dependency-injection and hosting wiring.
- Logging, `async`/`Task`, and `using` disposal are left out.
- The clock is read once per pass. The source reads `DateTime.UtcNow` separately for each `CreatedAt` and for `LastSync`, and the model uses one `now` for all of them.
- Progress status strings are not formatted. A report's text is the datatype `StatusText`, which carries the same numbers and subject.
- `ToLower()` is culture-aware in the source but modelled as ASCII lower-casing. A null filter string, which would throw, is not modelled.
- Emails received at the same instant keep their table order in the list. SQL leaves the order of such ties unspecified.
- Exceptions inside the loop are limited to a failed download. The dedup query failing, or a throwing progress observer, is not modelled.
- IMAP UIDs are unbounded naturals. The 32-bit UID range is not modelled, and `UniqueId.Invalid` is UID 0.
- The account CRUD calls outside the edit are not modelled: `GetEmailAccountsAsync`, `GetEmailAccountAsync`, `CreateEmailAccountAsync`, `DeleteEmailAccountAsync`, and `GetEmailAsync`. Each is a single store read or write.
- The `[Required]`, `[Range]` and `[EmailAddress]` annotations are left out. The framework enforces them.
- Content.Snippet: counts characters as Unicode scalar values, while `content.Length` and `Substring(0, 200)` (line 341) count UTF-16 code units. For text with characters outside the Basic Multilingual Plane, such as emoji, the model cuts later than the source does. The source's cut can also split a surrogate pair, which a Dafny string cannot hold.
- Normalizer.NewRecordShape: its snippet clause inherits the `Content.Snippet` difference in how length is counted.
- SyncLemmas.SecondPassFindsNothing: assumes that the tokens drawn by the first pass differ from every stored MessageId, as `Guid.NewGuid()` values do. A colliding token could make a message without a Message-ID look stored in the first pass and new in the second.

## Findings

| source | as written | input that shows it | evidently intended | confidence | as-written member | corrected member |
|---|---|---|---|---|---|---|
| BlazorEmailApp/Services/EmailService.cs:266-317 | The dedup query reads only saved rows, so a message present twice in one pass is staged twice. The batch save then breaks the unique MessageId index. The exception is swallowed, nothing is stored, `LastSync` is not advanced, and the staged count is still returned. The two rows stay tracked as Added in the scoped context, so every later save on that context throws as well. That includes mark-read, account edit and the next sync, so `LastSync` can stay stuck. | an inbox with UIDs 1 and 2 holding the same message (Message-ID `<1@example.org>`), synced into an empty table | store one copy, return 1, advance `LastSync` | medium; not executed | SyncCorrected.DuplicateIdLosesBatch | SyncCorrected.CorrectedPassCommits |

=== FILE: accounts.dfy ===
/** `UpdateEmailAccountAsync`: editing an account's settings. The cipher
    is a parameter `encrypt`, about which nothing is assumed. */
module Accounts {
  import opened Wrappers
  import opened Models
  import Content

  /** How a call ends: it returns a boolean, or the save throws and the
      exception reaches the caller. */
  datatype Outcome = Returned(found: bool) | Threw

  /** The unique index on `EmailAccount.Email` (Data/AppDbContext.cs:35). */
  predicate UniqueAddresses(accounts: seq<EmailAccount>) {
    forall i, j :: 0 <= i < j < |accounts| ==> accounts[i].email != accounts[j].email
  }

  /** The settings copied from the edited account, and the password stored
      after the edit. */
  function Edited(existing: EmailAccount, account: EmailAccount, plainPassword: Option<string>,
                  encrypt: string -> string): EmailAccount
  {
    var updated := existing.(
      name := account.name,
      email := account.email,
      imapServer := account.imapServer,
      imapPort := account.imapPort,
      useSsl := account.useSsl);
    if Content.IsNullOrEmpty(plainPassword) then updated
    else updated.(encryptedPassword := encrypt(plainPassword.value))
  }

  /** The address change the unique index refuses: the row at `k` moves
      to an address another row already has. An unchanged address is not
      written, so it cannot conflict. */
  predicate AddressTaken(accounts: seq<EmailAccount>, k: nat, address: string)
    requires k < |accounts|
  {
    address != accounts[k].email &&
    exists j :: 0 <= j < |accounts| && accounts[j].email == address
  }

  /** `UpdateEmailAccountAsync(account, plainPassword)`: false and no change
      when no account has `account.id`. If the new address belongs to
      another account, the save throws and nothing changes. Otherwise that
      account takes the five settings of `account`, keeps its key, creation
      time and `LastSync`, and has its password re-encrypted only when a
      non-empty one is given; no other account changes, and true is
      returned. */
  function UpdateEmailAccount(accounts: seq<EmailAccount>, account: EmailAccount,
                              plainPassword: Option<string>, encrypt: string -> string): (r: (Outcome, seq<EmailAccount>))
    ensures r.0 == Returned(false) <==> forall k :: 0 <= k < |accounts| ==> accounts[k].id != account.id
    ensures r.0 == Threw <==>
              exists k :: 0 <= k < |accounts| && accounts[k].id == account.id &&
                FindAccount(accounts, account.id) == Some(k) && AddressTaken(accounts, k, account.email)
    ensures r.0 != Returned(true) ==> r.1 == accounts
    ensures |r.1| == |accounts|
    ensures r.0 == Returned(true) ==>
              var k := FindAccount(accounts, account.id).value;
              && (forall j :: 0 <= j < |accounts| && j != k ==> r.1[j] == accounts[j])
              && r.1[k].id == accounts[k].id == account.id
              && r.1[k].createdAt == accounts[k].createdAt
              && r.1[k].lastSync == accounts[k].lastSync
              && r.1[k].name == account.name
              && r.1[k].email == account.email
              && r.1[k].imapServer == account.imapServer
              && r.1[k].imapPort == account.imapPort
              && r.1[k].useSsl == account.useSsl
              && (Content.IsNullOrEmpty(plainPassword) ==> r.1[k].encryptedPassword == accounts[k].encryptedPassword)
              && (!Content.IsNullOrEmpty(plainPassword) ==> r.1[k].encryptedPassword == encrypt(plainPassword.value))
  {
    match FindAccount(accounts, account.id)
    case None => (Returned(false), accounts)
    case Some(k) =>
      if AddressTaken(accounts, k, account.email) then (Threw, accounts)
      else (Returned(true), accounts[k := Edited(accounts[k], account, plainPassword, encrypt)])
  }

  /** A save the index accepts keeps addresses unique. */
  lemma UpdateKeepsUniqueAddresses(accounts: seq<EmailAccount>, account: EmailAccount,
                                   plainPassword: Option<string>, encrypt: string -> string)
    requires UniqueAddresses(accounts)
    ensures UniqueAddresses(UpdateEmailAccount(accounts, account, plainPassword, encrypt).1)
  {
    var r := UpdateEmailAccount(accounts, account, plainPassword, encrypt);
    if r.0 == Returned(true) {
      var k := FindAccount(accounts, account.id).value;
      forall i, j | 0 <= i < j < |r.1|
        ensures r.1[i].email != r.1[j].email
      {
        if i == k {
          assert r.1[j] == accounts[j];
          assert !AddressTaken(accounts, k, account.email);
        } else if j == k {
          assert r.1[i] == accounts[i];
          assert !AddressTaken(accounts, k, account.email);
        }
      }
    }
  }

  /** Saving the same edit twice leaves the accounts as saving it once. */
  lemma UpdateIdempotent(accounts: seq<EmailAccount>, account: EmailAccount,
                         plainPassword: Option<string>, encrypt: string -> string)
    ensures var once := UpdateEmailAccount(accounts, account, plainPassword, encrypt).1;
            UpdateEmailAccount(once, account, plainPassword, encrypt).1 == once
  {
    var once := UpdateEmailAccount(accounts, account, plainPassword, encrypt).1;
    match FindAccount(accounts, account.id)
    case None =>
    case Some(k) =>
      assert forall j :: 0 <= j < |accounts| ==> once[j].id == accounts[j].id;
      FindAccountByKeys(accounts, once, account.id);
      if !AddressTaken(accounts, k, account.email) {
        assert once[k].email == account.email;
        assert !AddressTaken(once, k, account.email);
      }
  }

  /** An edit without a new password, repeating the stored settings, changes
      nothing. */
  lemma UpdateWithSameSettingsIsNoOp(accounts: seq<EmailAccount>, k: nat, encrypt: string -> string)
    requires k < |accounts|
    requires FindAccount(accounts, accounts[k].id) == Some(k)
    ensures UpdateEmailAccount(accounts, accounts[k], None, encrypt) == (Returned(true), accounts)
  {
    assert !AddressTaken(accounts, k, accounts[k].email);
    assert Edited(accounts[k], accounts[k], None, encrypt) == accounts[k];
    assert accounts[k := accounts[k]] == accounts;
  }

  /** The edit that moves an account to another account's address throws
      and saves nothing. */
  lemma TakenAddressThrows(accounts: seq<EmailAccount>, k: nat, j: nat, account: EmailAccount,
                           plainPassword: Option<string>, encrypt: string -> string)
    requires k < |accounts| && j < |accounts|
    requires FindAccount(accounts, account.id) == Some(k)
    requires account.email == accounts[j].email != accounts[k].email
    ensures UpdateEmailAccount(accounts, account, plainPassword, encrypt) == (Threw, accounts)
  {
    assert AddressTaken(accounts, k, account.email);
  }
}

=== FILE: content.dfy ===
/** Content helpers of the sync pass: plain-text extraction from a message's
    bodies and the 200-character preview. */
module Content {
  import opened Wrappers

  /** Length of the preview before truncation. */
  const SnippetLength: nat := 200

  /** Marker appended to a truncated preview. */
  const Ellipsis: string := "..."

  /** `string.IsNullOrEmpty`. */
  predicate IsNullOrEmpty(s: Option<string>) {
    s.None? || |s.value| == 0
  }

  /** Position of the first '>' at or after `from`, if any. */
  function FindClose(s: string, from: nat): (r: Option<nat>)
    requires from <= |s|
    ensures r.Some? ==> from <= r.value < |s| && s[r.value] == '>'
    ensures r.Some? ==> forall k :: from <= k < r.value ==> s[k] != '>'
    ensures r.None? ==> forall k :: from <= k < |s| ==> s[k] != '>'
    decreases |s| - from
  {
    if from == |s| then None
    else if s[from] == '>' then Some(from)
    else FindClose(s, from + 1)
  }

  /** Replacement of every match of the pattern `<[^>]*>` by "": a
      leftmost, non-overlapping scan that drops each '<' together with
      everything up to and including the first '>' after it. A '<' with no
      '>' after it starts no match, and neither does any later character. */
  function StripTags(s: string): (r: string)
    ensures |r| <= |s|
    decreases |s|
  {
    if |s| == 0 then ""
    else if s[0] == '<' then
      match FindClose(s, 1)
      case Some(j) => StripTags(s[j + 1..])
      case None => s
    else [s[0]] + StripTags(s[1..])
  }

  /** No '<' is followed, anywhere later, by a '>': the text holds no match
      of `<[^>]*>`. */
  predicate TagFree(s: string) {
    forall i, j :: 0 <= i < j < |s| && s[i] == '<' ==> s[j] != '>'
  }

  /** `GetTextContent`: the text body when it is non-empty, otherwise the
      HTML body with its tags stripped when that is non-empty, otherwise "". */
  function TextContent(textBody: Option<string>, htmlBody: Option<string>): string {
    if !IsNullOrEmpty(textBody) then textBody.value
    else if !IsNullOrEmpty(htmlBody) then StripTags(htmlBody.value)
    else ""
  }

  /** `GetSnippet`, applied to already extracted content. */
  function Snippet(content: string): (r: string)
    ensures |r| <= SnippetLength + |Ellipsis|
    ensures |content| <= SnippetLength ==> r == content
    ensures |content| > SnippetLength ==>
              |r| == 203 && r[..SnippetLength] == content[..SnippetLength] && r[SnippetLength..] == Ellipsis
  {
    if |content| > SnippetLength then content[..SnippetLength] + Ellipsis else content
  }

  /** A text without '<' is left as it is. */
  lemma {:induction false} StripTagsWithoutOpen(s: string)
    requires forall k :: 0 <= k < |s| ==> s[k] != '<'
    ensures StripTags(s) == s
    decreases |s|
  {
    if |s| > 0 {
      StripTagsWithoutOpen(s[1..]);
      assert [s[0]] + s[1..] == s;
    }
  }

  /** A tag-free text is left as it is. */
  lemma {:induction false} StripTagsOfTagFree(s: string)
    requires TagFree(s)
    ensures StripTags(s) == s
    decreases |s|
  {
    if |s| > 0 {
      if s[0] == '<' {
        assert forall k :: 1 <= k < |s| ==> s[k] != '>';
        assert FindClose(s, 1).None?;
      } else {
        assert TagFree(s[1..]) by {
          forall i, j | 0 <= i < j < |s[1..]| && s[1..][i] == '<'
            ensures s[1..][j] != '>'
          {
            assert s[i + 1] == '<';
          }
        }
        StripTagsOfTagFree(s[1..]);
        assert [s[0]] + s[1..] == s;
      }
    }
  }

  /** Stripping leaves no tag behind. */
  lemma {:induction false} StripTagsIsTagFree(s: string)
    ensures TagFree(StripTags(s))
    decreases |s|
  {
    if |s| > 0 {
      if s[0] == '<' {
        var c := FindClose(s, 1);
        match c
        case Some(j) =>
          StripTagsIsTagFree(s[j + 1..]);
        case None =>
          assert StripTags(s) == s;
          forall i, j | 0 <= i < j < |s| && s[i] == '<'
            ensures s[j] != '>'
          {
            assert 1 <= j;
          }
      } else {
        var t := StripTags(s[1..]);
        StripTagsIsTagFree(s[1..]);
        var r := [s[0]] + t;
        assert StripTags(s) == r;
        forall i, j | 0 <= i < j < |r| && r[i] == '<'
          ensures r[j] != '>'
        {
          assert 0 < i;
          assert r[i] == t[i - 1] && r[j] == t[j - 1];
        }
      }
    }
  }

  /** Stripping is idempotent. */
  lemma StripTagsIdempotent(s: string)
    ensures StripTags(StripTags(s)) == StripTags(s)
  {
    StripTagsIsTagFree(s);
    StripTagsOfTagFree(StripTags(s));
  }

  /** One tag after a run of plain text is removed and the scan resumes
      right after its '>'. */
  lemma {:induction false} StripTagsRemovesTag(text: string, tag: string, rest: string)
    requires forall k :: 0 <= k < |text| ==> text[k] != '<'
    requires forall k :: 0 <= k < |tag| ==> tag[k] != '>'
    ensures StripTags(text + "<" + tag + ">" + rest) == text + StripTags(rest)
    decreases |text|
  {
    var s := text + "<" + tag + ">" + rest;
    if |text| == 0 {
      assert s == "<" + tag + ">" + rest;
      var c := FindClose(s, 1);
      assert s[|tag| + 1] == '>';
      assert forall k :: 1 <= k < |tag| + 1 ==> s[k] == tag[k - 1];
      assert c == Some(|tag| + 1);
      assert s[|tag| + 2..] == rest;
    } else {
      assert s[0] == text[0];
      assert s[1..] == text[1..] + "<" + tag + ">" + rest;
      StripTagsRemovesTag(text[1..], tag, rest);
      assert [text[0]] + text[1..] == text;
    }
  }

  /** The extraction policy: a non-empty text body wins unchanged; otherwise
      the result is tag-free, no longer than the HTML body, equal to it when
      it has no '<', and unchanged by a second stripping; with neither body
      it is empty. */
  lemma TextContentPolicy(textBody: Option<string>, htmlBody: Option<string>)
    ensures !IsNullOrEmpty(textBody) ==> TextContent(textBody, htmlBody) == textBody.value
    ensures IsNullOrEmpty(textBody) ==>
              var r := TextContent(textBody, htmlBody);
              && |r| <= |htmlBody.GetOr("")|
              && TagFree(r)
              && StripTags(r) == r
              && ((forall k :: 0 <= k < |htmlBody.GetOr("")| ==> htmlBody.GetOr("")[k] != '<') ==> r == htmlBody.GetOr(""))
    ensures IsNullOrEmpty(textBody) && IsNullOrEmpty(htmlBody) ==> TextContent(textBody, htmlBody) == ""
  {
    if IsNullOrEmpty(textBody) && !IsNullOrEmpty(htmlBody) {
      StripTagsIsTagFree(htmlBody.value);
      StripTagsIdempotent(htmlBody.value);
      if forall k :: 0 <= k < |htmlBody.value| ==> htmlBody.value[k] != '<' {
        StripTagsWithoutOpen(htmlBody.value);
      }
    }
  }

  /** Taking the preview of a preview changes nothing. */
  lemma SnippetIdempotent(content: string)
    ensures Snippet(Snippet(content)) == Snippet(content)
  {
    if |content| > SnippetLength {
      var r := Snippet(content);
      assert r[..SnippetLength] == content[..SnippetLength];
    }
  }
}

=== FILE: dedup.dfy ===
/** The "already stored?" test of the sync pass. */
module Dedup {
  import opened Wrappers
  import opened Models
  import opened Remote

  /** A stored email matches a downloaded message on its resolved id, or on
      the triple (From, Subject ?? "", Date.DateTime). */
  predicate SameMessage(stored: Email, messageId: string, raw: RawMessage) {
    || stored.messageId == messageId
    || (&& stored.from == raw.from
        && stored.subject == raw.subject.GetOr("")
        && stored.receivedDate == raw.date.dateTime)
  }

  /** The `FirstOrDefaultAsync` query against the saved emails. */
  function FindExisting(saved: seq<Email>, messageId: string, raw: RawMessage): (r: Option<Email>)
    ensures r.Some? ==> r.value in saved && SameMessage(r.value, messageId, raw)
    ensures r.None? <==> forall e :: e in saved ==> !SameMessage(e, messageId, raw)
  {
    if |saved| == 0 then None
    else if SameMessage(saved[0], messageId, raw) then Some(saved[0])
    else FindExisting(saved[1..], messageId, raw)
  }
}

=== FILE: models.dfy ===
/** The two persisted entities, `Email` and `EmailAccount`, and the store
    that holds them. */
module Models {
  import opened Wrappers

  /** A `DateTime`, as its tick count. */
  type DateTime = int

  /** One stored message (Models/Email.cs). `id` is the primary key the
      database assigns on save; a staged, unsaved record carries 0. */
  datatype Email = Email(
    id: int,
    messageId: string,
    from: string,
    to: string,
    subject: string,
    content: string,
    receivedDate: DateTime,
    isRead: bool,
    hasAttachments: bool,
    snippet: Option<string>,
    createdAt: DateTime)

  /** One configured mailbox (Models/EmailAccount.cs). */
  datatype EmailAccount = EmailAccount(
    id: int,
    name: string,
    email: string,
    imapServer: string,
    imapPort: int,
    encryptedPassword: string,
    useSsl: bool,
    createdAt: DateTime,
    lastSync: Option<DateTime>)

  /** The two tables of the database context. */
  datatype Store = Store(emails: seq<Email>, accounts: seq<EmailAccount>)

  /** The unique index on `Email.MessageId`. */
  predicate UniqueMessageIds(emails: seq<Email>) {
    forall i, j :: 0 <= i < j < |emails| ==> emails[i].messageId != emails[j].messageId
  }

  /** `FindAsync(id)`: the position of the first row whose primary key
      is `id`, given the key column `keys`, if any. */
  function IndexOfKey(keys: seq<int>, id: int): (r: Option<nat>)
    ensures r.Some? ==> r.value < |keys| && keys[r.value] == id
    ensures r.Some? ==> forall j :: 0 <= j < r.value ==> keys[j] != id
    ensures r.None? <==> forall k :: 0 <= k < |keys| ==> keys[k] != id
  {
    if |keys| == 0 then None
    else if keys[0] == id then Some(0)
    else match IndexOfKey(keys[1..], id)
      case None => None
      case Some(k) => Some(k + 1)
  }

  /** The primary-key column of a table whose rows have key `key`. */
  function Keys<T>(rows: seq<T>, key: T -> int): (keys: seq<int>)
    ensures |keys| == |rows|
    ensures forall k :: 0 <= k < |rows| ==> keys[k] == key(rows[k])
  {
    seq(|rows|, k requires 0 <= k < |rows| => key(rows[k]))
  }

  /** `FindAsync(id)` on the accounts table. */
  function FindAccount(accounts: seq<EmailAccount>, id: int): (r: Option<nat>)
    ensures r.Some? ==> r.value < |accounts| && accounts[r.value].id == id
    ensures r.None? <==> forall k :: 0 <= k < |accounts| ==> accounts[k].id != id
  {
    IndexOfKey(Keys(accounts, (a: EmailAccount) => a.id), id)
  }

  /** `FindAccount` only looks at keys. */
  lemma FindAccountByKeys(xs: seq<EmailAccount>, ys: seq<EmailAccount>, id: int)
    requires |xs| == |ys|
    requires forall k :: 0 <= k < |xs| ==> xs[k].id == ys[k].id
    ensures FindAccount(xs, id) == FindAccount(ys, id)
  {
    assert Keys(xs, (a: EmailAccount) => a.id) == Keys(ys, (a: EmailAccount) => a.id);
  }
}

=== FILE: normalizer.dfy ===
/** Construction of a new `Email` record from a downloaded message. */
module Normalizer {
  import opened Wrappers
  import opened Models
  import opened Remote
  import opened Content

  /** `fullMessage.MessageId ?? Guid.NewGuid().ToString()`: `??` only
      replaces a missing header, so an empty Message-ID is kept. */
  function ResolveMessageId(raw: RawMessage, token: string): string {
    raw.messageId.GetOr(token)
  }

  /** Whether resolving the id draws a fresh token. */
  predicate NeedsToken(raw: RawMessage) {
    raw.messageId.None?
  }

  /** The unsaved record built for a new message; `now` is the clock
      reading that `CreatedAt` defaults to. */
  function BuildEmail(raw: RawMessage, messageId: string, now: DateTime): Email {
    var content := TextContent(raw.textBody, raw.htmlBody);
    Email(
      id := 0,
      messageId := messageId,
      from := raw.from,
      to := raw.to,
      subject := raw.subject.GetOr(""),
      content := content,
      receivedDate := raw.date.dateTime,
      isRead := false,
      hasAttachments := |raw.attachments| > 0,
      snippet := Some(Snippet(TextContent(raw.textBody, raw.htmlBody))),
      createdAt := now)
  }

  /** The shape of a new record: unread, unsaved, subject defaulted to "",
      the header id kept whenever present (even empty) and the token used
      only when it is absent, the attachment flag set exactly when there is
      an attachment, the offset of the date dropped, and the preview taken
      from the stored content. */
  lemma NewRecordShape(raw: RawMessage, token: string, now: DateTime)
    ensures var e := BuildEmail(raw, ResolveMessageId(raw, token), now);
            && !e.isRead
            && e.id == 0
            && e.createdAt == now
            && (raw.subject.Some? ==> e.subject == raw.subject.value)
            && (raw.subject.None? ==> e.subject == "")
            && (raw.messageId.Some? ==> e.messageId == raw.messageId.value)
            && (raw.messageId.None? ==> e.messageId == token)
            && (e.hasAttachments <==> |raw.attachments| > 0)
            && e.receivedDate == raw.date.dateTime
            && e.from == raw.from && e.to == raw.to
            && e.content == TextContent(raw.textBody, raw.htmlBody)
            && e.snippet.Some?
            && (|e.content| <= SnippetLength ==> e.snippet.value == e.content)
            && (|e.content| > SnippetLength ==> e.snippet.value == e.content[..SnippetLength] + Ellipsis)
  {
  }
}

=== FILE: queries.dfy ===
/** The message list and its count (`GetEmailsAsync`, `GetEmailsCountAsync`)
    and `MarkEmailAsReadAsync`, over the emails table. */
module Queries {
  import opened Wrappers
  import opened Models

  /** The range of a C# `int`. */
  type Int32 = x: int | -0x8000_0000 <= x < 0x8000_0000

  /** C#'s unchecked `int` arithmetic: the result wrapped to 32 bits. */
  function Wrap32(x: int): (r: Int32)
    ensures -0x8000_0000 <= x < 0x8000_0000 ==> r == x
    ensures (r - x) % 0x1_0000_0000 == 0
  {
    if -0x8000_0000 <= x < 0x8000_0000 then x
    else (x + 0x8000_0000) % 0x1_0000_0000 - 0x8000_0000
  }

  /** The three list filters. */
  datatype Filter = All | Unread | Read

  /** `char.ToLower` on ASCII letters. */
  function LowerAscii(c: char): char {
    if 'A' <= c <= 'Z' then (c as int + 32) as char else c
  }

  /** `string.ToLower()`, for ASCII: no upper-case letter is left, and each
      character of `s` is the result's character or its upper-case form. */
  function ToLower(s: string): (r: string)
    ensures |r| == |s|
    ensures forall k :: 0 <= k < |r| ==> !('A' <= r[k] <= 'Z')
    ensures forall k :: 0 <= k < |s| ==> s[k] == r[k] || s[k] == UpperAscii(r[k])
  {
    seq(|s|, k requires 0 <= k < |s| => LowerAscii(s[k]))
  }

  /** The `switch (filter.ToLower())`: "unread" and "read" select, anything
      else (including "all") shows everything. */
  function ParseFilter(filter: string): Filter {
    var f := ToLower(filter);
    if f == "unread" then Unread
    else if f == "read" then Read
    else All
  }

  predicate Matches(f: Filter, e: Email) {
    match f
    case Unread => !e.isRead
    case Read => e.isRead
    case All => true
  }

  /** `query.Where(...)`, keeping the table's order. */
  function Where(emails: seq<Email>, f: Filter): (r: seq<Email>)
    ensures |r| <= |emails|
    ensures forall e :: e in r ==> e in emails && Matches(f, e)
    ensures forall e :: e in emails && Matches(f, e) ==> e in r
    ensures multiset(r) <= multiset(emails)
  {
    if |emails| == 0 then []
    else
      var rest := Where(emails[1..], f);
      assert emails == [emails[0]] + emails[1..];
      if Matches(f, emails[0]) then [emails[0]] + rest else rest
  }

  /** Newest first. */
  predicate SortedByDateDesc(s: seq<Email>) {
    forall i, j :: 0 <= i < j < |s| ==> s[i].receivedDate >= s[j].receivedDate
  }

  /** An email no older than any email of a newest-first list can go in
      front of it. */
  lemma ConsSorted(x: Email, s: seq<Email>)
    requires SortedByDateDesc(s)
    requires forall y :: y in s ==> y.receivedDate <= x.receivedDate
    ensures SortedByDateDesc([x] + s)
  {
    var r := [x] + s;
    forall i, j | 0 <= i < j < |r|
      ensures r[i].receivedDate >= r[j].receivedDate
    {
      if i == 0 {
        assert r[j] in s;
      } else {
        assert r[i] == s[i - 1] && r[j] == s[j - 1];
      }
    }
  }

  /** Insertion into a newest-first list, before the first email that is
      not newer. */
  function InsertByDate(e: Email, s: seq<Email>): (r: seq<Email>)
    requires SortedByDateDesc(s)
    ensures |r| == |s| + 1
    ensures forall x :: x in r ==> x == e || x in s
    ensures SortedByDateDesc(r)
    ensures multiset(r) == multiset(s) + multiset{e}
  {
    if |s| == 0 then [e]
    else if s[0].receivedDate <= e.receivedDate then
      ConsSorted(e, s);
      [e] + s
    else
      assert s == [s[0]] + s[1..];
      var rest := InsertByDate(e, s[1..]);
      ConsSorted(s[0], rest);
      [s[0]] + rest
  }

  /** `OrderByDescending(e => e.ReceivedDate)`: a newest-first permutation.
      Emails received at the same time keep their table order. */
  function OrderByDateDesc(s: seq<Email>): (r: seq<Email>)
    ensures SortedByDateDesc(r)
    ensures multiset(r) == multiset(s)
  {
    if |s| == 0 then []
    else
      assert s == [s[0]] + s[1..];
      InsertByDate(s[0], OrderByDateDesc(s[1..]))
  }

  /** `Skip(offset).Take(limit)` as SQLite runs it: a negative OFFSET counts
      as 0 and a negative LIMIT as no limit. */
  function SkipTake(s: seq<Email>, offset: int, limit: int): (r: seq<Email>)
    ensures limit >= 0 ==> |r| <= limit
    ensures multiset(r) <= multiset(s)
    ensures SortedByDateDesc(s) ==> SortedByDateDesc(r)
    ensures 0 <= offset && 0 <= limit ==>
              r == s[(if offset < |s| then offset else |s|)..(if offset + limit < |s| then offset + limit else |s|)]
    ensures offset < 0 && 0 <= limit ==> r == s[..Clamp(limit, |s|)]
    ensures limit < 0 ==> r == s[Clamp(offset, |s|)..]
  {
    var start := if offset < 0 then 0 else if offset > |s| then |s| else offset;
    var end := if limit < 0 || start + limit > |s| then |s| else start + limit;
    SliceFacts(s, start, end);
    s[start..end]
  }

  /** A slice is a sub-multiset, and a slice of a sorted list is sorted. */
  lemma SliceFacts(s: seq<Email>, lo: nat, hi: nat)
    requires lo <= hi <= |s|
    ensures multiset(s[lo..hi]) <= multiset(s)
    ensures SortedByDateDesc(s) ==> SortedByDateDesc(s[lo..hi])
  {
    assert s == s[..lo] + s[lo..hi] + s[hi..];
    if SortedByDateDesc(s) {
      var r := s[lo..hi];
      forall i, j | 0 <= i < j < |r|
        ensures r[i].receivedDate >= r[j].receivedDate
      {
        assert r[i] == s[lo + i] && r[j] == s[lo + j];
      }
    }
  }

  /** `GetEmailsAsync(accountId, page, pageSize, filter)`. The account
      filter is the placeholder `Where(e => true)`. The offset
      `(page - 1) * pageSize` is computed in unchecked 32-bit arithmetic. */
  function GetEmails(emails: seq<Email>, accountId: Option<int>, page: Int32, pageSize: Int32,
                     filter: string): (r: seq<Email>)
    ensures forall e :: e in r ==> e in emails && Matches(ParseFilter(filter), e)
    ensures pageSize >= 0 ==> |r| <= pageSize
    ensures SortedByDateDesc(r)
    ensures multiset(r) <= multiset(emails)
  {
    var scoped := if accountId.Some? then Where(emails, All) else emails;
    var filtered := Where(scoped, ParseFilter(filter));
    var sorted := OrderByDateDesc(filtered);
    var r := SkipTake(sorted, PageOffset(page, pageSize), pageSize);
    assert forall e :: e in r ==> e in multiset(sorted);
    r
  }

  /** `GetEmailsCountAsync(accountId, filter)`. */
  function GetEmailsCount(emails: seq<Email>, accountId: Option<int>, filter: string): (n: nat)
    ensures n <= |emails|
  {
    var scoped := if accountId.Some? then Where(emails, All) else emails;
    |Where(scoped, ParseFilter(filter))|
  }

  /** The filter `All` keeps the table as it is, so the account placeholder
      does nothing. */
  lemma {:induction false} WhereAllIsIdentity(emails: seq<Email>)
    ensures Where(emails, All) == emails
  {
    if |emails| > 0 {
      WhereAllIsIdentity(emails[1..]);
      assert [emails[0]] + emails[1..] == emails;
    }
  }

  /** The `accountId` argument has no effect on the list or on its count. */
  lemma AccountIdIgnored(emails: seq<Email>, a: Option<int>, b: Option<int>,
                         page: Int32, pageSize: Int32, filter: string)
    ensures GetEmails(emails, a, page, pageSize, filter) == GetEmails(emails, b, page, pageSize, filter)
    ensures GetEmailsCount(emails, a, filter) == GetEmailsCount(emails, b, filter)
  {
    WhereAllIsIdentity(emails);
  }

  /** Read and unread emails split the table. */
  lemma {:induction false} ReadUnreadPartition(emails: seq<Email>)
    ensures |Where(emails, Read)| + |Where(emails, Unread)| == |Where(emails, All)| == |emails|
  {
    if |emails| > 0 {
      ReadUnreadPartition(emails[1..]);
    }
  }

  /** `char.ToUpper` on ASCII letters. */
  function UpperAscii(c: char): char {
    if 'a' <= c <= 'z' then (c as int - 32) as char else c
  }

  /** `s` spells the lower-case word `w` in some mix of letter cases. */
  predicate AnyCaseOf(s: string, w: string) {
    |s| == |w| && forall k :: 0 <= k < |s| ==> s[k] == w[k] || s[k] == UpperAscii(w[k])
  }

  /** A character lower-cases to a lower-case letter exactly when it is
      that letter in either case. */
  lemma LowerAsciiInverse(x: char, c: char)
    requires 'a' <= c <= 'z'
    ensures LowerAscii(x) == c <==> x == c || x == UpperAscii(c)
  {
  }

  /** Lower-casing gives the lower-case word `w` exactly when `s` spells
      it in any case. */
  lemma ToLowerSpells(s: string, w: string)
    requires forall k :: 0 <= k < |w| ==> 'a' <= w[k] <= 'z'
    ensures ToLower(s) == w <==> AnyCaseOf(s, w)
  {
    if |s| == |w| {
      forall k | 0 <= k < |s|
        ensures ToLower(s)[k] == w[k] <==> s[k] == w[k] || s[k] == UpperAscii(w[k])
      {
        LowerAsciiInverse(s[k], w[k]);
      }
      if AnyCaseOf(s, w) {
        assert forall k :: 0 <= k < |s| ==> ToLower(s)[k] == w[k];
      }
    }
  }

  /** The filter string is read case-insensitively: "unread" and "read" in
      any ASCII letter case select their filter, and every other string,
      "all" included, selects everything. */
  lemma FilterSpellings(filter: string)
    ensures ParseFilter(filter) == Unread <==> AnyCaseOf(filter, "unread")
    ensures ParseFilter(filter) == Read <==> AnyCaseOf(filter, "read")
    ensures ParseFilter(filter) == All <==> !AnyCaseOf(filter, "unread") && !AnyCaseOf(filter, "read")
  {
    ToLowerSpells(filter, "unread");
    ToLowerSpells(filter, "read");
  }

  /** `(page - 1) * pageSize` in unchecked 32-bit arithmetic. */
  function PageOffset(page: Int32, pageSize: Int32): Int32 {
    Wrap32(Wrap32(page - 1) * pageSize)
  }

  /** Paging: with a non-negative offset and page size, a page is the run
      of `pageSize` emails of the newest-first filtered list starting at the
      offset; the count is that list's length. */
  lemma PageIsSlice(emails: seq<Email>, accountId: Option<int>, page: Int32, pageSize: Int32, filter: string)
    requires PageOffset(page, pageSize) >= 0 && pageSize >= 0
    ensures var listing := OrderByDateDesc(Where(emails, ParseFilter(filter)));
            var lo := PageOffset(page, pageSize);
            && |listing| == GetEmailsCount(emails, accountId, filter)
            && GetEmails(emails, accountId, page, pageSize, filter) ==
                 listing[Clamp(lo, |listing|)..Clamp(lo + pageSize, |listing|)]
  {
    ListingLength(emails, accountId, filter);
    GetEmailsIsSkipTake(emails, accountId, page, pageSize, filter);
  }

  /** Without overflow, page p starts after p - 1 full pages. */
  lemma PageOffsetWithoutOverflow(page: Int32, pageSize: Int32)
    requires page >= 1 && pageSize >= 0
    requires page * pageSize < 0x8000_0000
    ensures PageOffset(page, pageSize) == (page - 1) * pageSize >= 0
  {
    assert (page - 1) * pageSize == page * pageSize - pageSize;
    assert Wrap32(page - 1) == page - 1;
    assert 0 <= (page - 1) * pageSize < 0x8000_0000;
    assert Wrap32(page - 1) * pageSize == (page - 1) * pageSize;
  }

  /** A page whose wrapped offset comes out negative is the first page:
      page 0 or below while `(page - 1) * pageSize` stays at or above
      -2^31, or a product that wrapped negative. A page number far enough
      below 0 wraps to a positive offset instead and is not covered. */
  lemma NegativeOffsetIsFirstPage(emails: seq<Email>, accountId: Option<int>, page: Int32, pageSize: Int32,
                                  filter: string)
    requires PageOffset(page, pageSize) < 0 && pageSize >= 0
    ensures GetEmails(emails, accountId, page, pageSize, filter) == GetEmails(emails, accountId, 1, pageSize, filter)
  {
    assert PageOffset(1, pageSize) == 0;
    GetEmailsIsSkipTake(emails, accountId, page, pageSize, filter);
    GetEmailsIsSkipTake(emails, accountId, 1, pageSize, filter);
  }

  /** Two pages that run past `int`: page 0 and page 2^30 of size 4 are both
      the first page. */
  lemma OverflowedPagesAreFirstPage(emails: seq<Email>, filter: string)
    ensures GetEmails(emails, None, 0, 20, filter) == GetEmails(emails, None, 1, 20, filter)
    ensures GetEmails(emails, None, 0x4000_0000, 4, filter) == GetEmails(emails, None, 1, 4, filter)
  {
    assert PageOffset(0, 20) == -20;
    assert PageOffset(0x4000_0000, 4) == -4;
    NegativeOffsetIsFirstPage(emails, None, 0, 20, filter);
    NegativeOffsetIsFirstPage(emails, None, 0x4000_0000, 4, filter);
  }

  /** The list behind both queries, before paging. */
  lemma ListingLength(emails: seq<Email>, accountId: Option<int>, filter: string)
    ensures |OrderByDateDesc(Where(emails, ParseFilter(filter)))| == GetEmailsCount(emails, accountId, filter)
  {
    WhereAllIsIdentity(emails);
    var filtered := Where(emails, ParseFilter(filter));
    assert |multiset(OrderByDateDesc(filtered))| == |multiset(filtered)|;
  }

  /** `GetEmails` pages the sorted, filtered list. */
  lemma GetEmailsIsSkipTake(emails: seq<Email>, accountId: Option<int>, page: Int32, pageSize: Int32, filter: string)
    ensures GetEmails(emails, accountId, page, pageSize, filter) ==
              SkipTake(OrderByDateDesc(Where(emails, ParseFilter(filter))), PageOffset(page, pageSize), pageSize)
  {
    WhereAllIsIdentity(emails);
  }

  /** `x` forced into `[0, n]`. */
  function Clamp(x: int, n: nat): (r: nat)
    ensures r <= n
    ensures 0 <= x <= n ==> r == x
  {
    if x < 0 then 0 else if x > n then n else x
  }

  /** `MarkEmailAsReadAsync(id)`: false and no change for an unknown id;
      otherwise only the `IsRead` flag of that email changes, to true. */
  function MarkEmailAsRead(emails: seq<Email>, id: int): (r: (bool, seq<Email>))
    ensures r.0 <==> exists k :: 0 <= k < |emails| && emails[k].id == id
    ensures !r.0 ==> r.1 == emails
    ensures |r.1| == |emails|
    ensures forall k :: 0 <= k < |emails| ==> r.1[k].(isRead := emails[k].isRead) == emails[k]
    ensures forall k :: 0 <= k < |emails| && r.1[k] != emails[k] ==> emails[k].id == id && r.1[k].isRead
    ensures r.0 ==> exists k :: 0 <= k < |emails| && emails[k].id == id && r.1[k].isRead
  {
    match IndexOfKey(Keys(emails, (e: Email) => e.id), id)
    case None => (false, emails)
    case Some(k) => (true, emails[k := emails[k].(isRead := true)])
  }

  /** Marking an email read twice is marking it once. */
  lemma MarkEmailAsReadIdempotent(emails: seq<Email>, id: int)
    ensures MarkEmailAsRead(MarkEmailAsRead(emails, id).1, id).1 == MarkEmailAsRead(emails, id).1
  {
    var once := MarkEmailAsRead(emails, id).1;
    match IndexOfKey(Keys(emails, (e: Email) => e.id), id)
    case None =>
    case Some(k) =>
      assert forall j :: 0 <= j < |emails| ==> once[j].id == emails[j].id;
      assert Keys(once, (e: Email) => e.id) == Keys(emails, (e: Email) => e.id);
  }
}

=== FILE: remote.dfy ===
/** The remote side of a sync pass, reduced to the values the service
    consumes: the inbox's UID list (`SearchAsync(SearchQuery.All)`), the
    summaries a bulk fetch returns (`FetchAsync`), and the parsed message
    behind each UID (`GetMessageAsync`). */
module Remote {
  import opened Wrappers
  import opened Models

  /** An IMAP UID. */
  type Uid = nat

  /** `UniqueId.Invalid`, the sentinel a summary may carry instead of a UID. */
  const InvalidUid: Uid := 0

  /** A `DateTimeOffset`: the local clock reading and its offset from UTC. */
  datatype DateTimeOffset = DateTimeOffset(dateTime: DateTime, offsetMinutes: int)

  /** The parts of a parsed `MimeMessage` the service reads. `from` and `to`
      are the address lists already rendered by their `ToString`. */
  datatype RawMessage = RawMessage(
    messageId: Option<string>,
    from: string,
    to: string,
    subject: Option<string>,
    date: DateTimeOffset,
    textBody: Option<string>,
    htmlBody: Option<string>,
    attachments: seq<string>)

  /** The outcome of downloading one message: the parsed message, or an
      exception (expunged meanwhile, parse error, protocol error). */
  datatype FetchResult = Fetched(message: RawMessage) | FetchFailed

  /** An opened inbox. `summaries(window)` is the summary fetch for a window
      of UIDs, each summary represented by its UID (possibly `InvalidUid`);
      `None` means the fetch threw. */
  datatype Mailbox = Mailbox(
    uids: seq<Uid>,
    summaries: seq<Uid> -> Option<seq<Uid>>,
    fetch: Uid -> FetchResult)

  /** Connecting, authenticating, opening the inbox and listing its UIDs
      either all succeed or one of them throws. */
  datatype Session = Unreachable | Connected(inbox: Mailbox)
}

=== FILE: sync.dfy ===
/** One mailbox sync pass (`SyncEmailsAsync`), as a pure function of the
    store, the remote session, the stream of fresh tokens that
    `Guid.NewGuid()` would produce, and the clock reading `now`. */
module Sync {
  import opened Wrappers
  import opened Models
  import opened Remote
  import opened Window
  import opened Normalizer
  import opened Dedup

  /** The human-readable part of a progress report. */
  datatype StatusText =
    | FoundEmails(count: nat)
    | ProcessingEmail(current: nat, total: nat, subject: string)

  /** One `progress.Report((current, total, status))` call. */
  datatype Progress = Progress(current: nat, total: nat, status: StatusText)

  /** Why a summary contributed nothing. */
  datatype SkipReason = InvalidUniqueId | FetchError | AlreadyStored

  /** The result of the loop body for one summary. */
  datatype MessageOutcome = Skipped(reason: SkipReason) | Staged(email: Email)

  /** What stays fixed during the per-message loop: the saved emails the
      dedup query sees, the opened inbox, the token stream, the clock, and
      the number of summaries (the `total` of every report). */
  datatype PassContext = PassContext(
    saved: seq<Email>,
    inbox: Mailbox,
    tokens: nat -> string,
    now: DateTime,
    total: nat)

  /** What the loop accumulates: the emails added to the context but not yet
      saved, the progress reports after the first, and how many tokens have
      been drawn. */
  datatype PassState = PassState(staged: seq<Email>, trace: seq<Progress>, tokensUsed: nat)

  const Start: PassState := PassState([], [], 0)

  /** The loop body for one summary (EmailService.cs:251-303): skip an
      invalid UID; download the message, and skip it when that throws;
      resolve its id, drawing a token when the header has none; skip it when
      a saved email matches; otherwise build the new record. The second
      component is the number of tokens drawn so far. */
  function ProcessMessage(ctx: PassContext, used: nat, uid: Uid): (r: (MessageOutcome, nat))
    ensures r.0 == Skipped(InvalidUniqueId) <==> uid == InvalidUid
    ensures r.0 == Skipped(FetchError) <==> uid != InvalidUid && ctx.inbox.fetch(uid).FetchFailed?
    ensures r.0 == Skipped(AlreadyStored) ==>
              uid != InvalidUid && ctx.inbox.fetch(uid).Fetched? &&
              var raw := ctx.inbox.fetch(uid).message;
              exists e :: e in ctx.saved && SameMessage(e, ResolveMessageId(raw, ctx.tokens(used)), raw)
    ensures r.0.Staged? ==>
              && uid != InvalidUid && ctx.inbox.fetch(uid).Fetched?
              && var raw := ctx.inbox.fetch(uid).message;
              && r.0.email == BuildEmail(raw, ResolveMessageId(raw, ctx.tokens(used)), ctx.now)
              && forall e :: e in ctx.saved ==> !SameMessage(e, r.0.email.messageId, raw)
    ensures r.1 == if uid != InvalidUid && ctx.inbox.fetch(uid).Fetched? && NeedsToken(ctx.inbox.fetch(uid).message)
                   then used + 1 else used
  {
    if uid == InvalidUid then (Skipped(InvalidUniqueId), used)
    else match ctx.inbox.fetch(uid)
      case FetchFailed => (Skipped(FetchError), used)
      case Fetched(raw) =>
        var messageId := ResolveMessageId(raw, ctx.tokens(used));
        var used' := if NeedsToken(raw) then used + 1 else used;
        if FindExisting(ctx.saved, messageId, raw).Some? then (Skipped(AlreadyStored), used')
        else (Staged(BuildEmail(raw, messageId, ctx.now)), used')
  }

  /** One iteration of the loop: a staged email is appended and reported
      with `current` equal to the new number of staged emails. */
  function Step(ctx: PassContext, st: PassState, uid: Uid): PassState {
    var (outcome, used) := ProcessMessage(ctx, st.tokensUsed, uid);
    match outcome
    case Skipped(_) => st.(tokensUsed := used)
    case Staged(e) =>
      var current := |st.staged| + 1;
      PassState(
        st.staged + [e],
        st.trace + [Progress(current, ctx.total, ProcessingEmail(current, ctx.total, e.subject))],
        used)
  }

  /** The loop over the summaries, in order. */
  function ProcessAll(ctx: PassContext, st: PassState, uids: seq<Uid>): (r: PassState)
    ensures st.staged <= r.staged && st.trace <= r.trace
    ensures |r.staged| <= |st.staged| + |uids|
    ensures |r.trace| - |st.trace| == |r.staged| - |st.staged|
    ensures st.tokensUsed <= r.tokensUsed
    decreases |uids|
  {
    if |uids| == 0 then st
    else Step(ctx, ProcessAll(ctx, st, uids[..|uids| - 1]), uids[|uids| - 1])
  }

  /** The loop as the source writes it, iterating over the summaries and
      accumulating the staged emails, reports and token count. */
  method RunLoop(ctx: PassContext, uids: seq<Uid>) returns (staged: seq<Email>, trace: seq<Progress>, used: nat)
    ensures PassState(staged, trace, used) == ProcessAll(ctx, Start, uids)
  {
    staged, trace, used := [], [], 0;
    var i := 0;
    while i < |uids|
      invariant 0 <= i <= |uids|
      invariant PassState(staged, trace, used) == ProcessAll(ctx, Start, uids[..i])
    {
      assert uids[..i + 1][..i] == uids[..i];
      var (outcome, used') := ProcessMessage(ctx, used, uids[i]);
      used := used';
      if outcome.Staged? {
        var e := outcome.email;
        staged := staged + [e];
        trace := trace + [Progress(|staged|, ctx.total, ProcessingEmail(|staged|, ctx.total, e.subject))];
      }
      i := i + 1;
    }
    assert uids[..|uids|] == uids;
  }

  /** Some staged id already in the saved table, or two staged emails
      sharing an id: the batch insert violates the unique index on
      MessageId (Data/AppDbContext.cs:19) and `SaveChangesAsync` throws. */
  predicate InsertConflicts(saved: seq<Email>, staged: seq<Email>) {
    exists i :: 0 <= i < |staged| &&
      (|| (exists e :: e in saved && e.messageId == staged[i].messageId)
       || (exists j :: 0 <= j < |staged| && j != i && staged[j].messageId == staged[i].messageId))
  }

  /** The largest primary key in use, 0 for an empty table. */
  function MaxId(emails: seq<Email>): (m: int)
    ensures m >= 0
    ensures forall e :: e in emails ==> e.id <= m
  {
    if |emails| == 0 then 0 else Max(emails[0].id, MaxId(emails[1..]))
  }

  /** The keys SQLite gives inserted rows: one past the largest in use,
      consecutively. Only the key of each row is set, every key is at least
      `next`, and the keys increase in insertion order, so no two collide. */
  function AssignIds(staged: seq<Email>, next: int): (r: seq<Email>)
    ensures |r| == |staged|
    ensures forall k :: 0 <= k < |r| ==> r[k] == staged[k].(id := r[k].id)
    ensures forall k :: 0 <= k < |r| ==> next <= r[k].id
    ensures forall i, j :: 0 <= i < j < |r| ==> r[i].id < r[j].id
  {
    seq(|staged|, k requires 0 <= k < |staged| => staged[k].(id := next + k))
  }

  /** The batch save: the new table, or `None` when the insert throws. */
  function Commit(saved: seq<Email>, staged: seq<Email>): Option<seq<Email>> {
    if InsertConflicts(saved, staged) then None
    else Some(saved + AssignIds(staged, MaxId(saved) + 1))
  }

  /** `account.LastSync = DateTime.UtcNow` on the account at position `a`. */
  function MarkSynced(accounts: seq<EmailAccount>, a: nat, now: DateTime): seq<EmailAccount>
    requires a < |accounts|
  {
    accounts[a := accounts[a].(lastSync := Some(now))]
  }

  /** The observable result of a pass: the returned count, the store
      afterwards, every progress report in order, and whether the batch
      save succeeded. */
  datatype SyncResult = SyncResult(count: nat, store: Store, trace: seq<Progress>, committed: bool)

  /** No work: the count is 0 and nothing changes. */
  function NoWork(db: Store): SyncResult {
    SyncResult(0, db, [], false)
  }

  /** How far a pass got before its loop: the account's position, the
      opened inbox, and the non-empty list of summaries to process. */
  datatype Prepared = Prepared(account: nat, inbox: Mailbox, summaries: seq<Uid>)

  /** EmailService.cs:170-244: find the account, open the session, list the
      UIDs, select the window and fetch its summaries. `None` is every early
      return: a missing account, a session or summary fetch that throws, an
      empty inbox, window or summary list. */
  function Prepare(db: Store, accountId: int, fullSync: bool, session: Session): (p: Option<Prepared>)
    ensures p.Some? ==>
              && FindAccount(db.accounts, accountId) == Some(p.value.account)
              && session == Connected(p.value.inbox)
              && |p.value.inbox.uids| > 0
              && p.value.inbox.summaries(SelectWindow(p.value.inbox.uids, fullSync, db.emails)) == Some(p.value.summaries)
              && |p.value.summaries| > 0
    ensures p.None? <==>
              || FindAccount(db.accounts, accountId).None?
              || session.Unreachable?
              || |session.inbox.uids| == 0
              || session.inbox.summaries(SelectWindow(session.inbox.uids, fullSync, db.emails)).None?
              || session.inbox.summaries(SelectWindow(session.inbox.uids, fullSync, db.emails)) == Some([])
  {
    match FindAccount(db.accounts, accountId)
    case None => None
    case Some(a) =>
      match session
      case Unreachable => None
      case Connected(inbox) =>
        if |inbox.uids| == 0 then None
        else
          var window := SelectWindow(inbox.uids, fullSync, db.emails);
          if |window| == 0 then None
          else match inbox.summaries(window)
            case None => None
            case Some(summaries) =>
              if |summaries| == 0 then None
              else Some(Prepared(a, inbox, summaries))
  }

  /** The loop's context for a prepared pass. */
  function ContextOf(db: Store, p: Prepared, tokens: nat -> string, now: DateTime): PassContext {
    PassContext(db.emails, p.inbox, tokens, now, |p.summaries|)
  }

  /** EmailService.cs:246-310: report the total, run the loop, save the
      batch and, only once that succeeded, set `LastSync`. When the save
      throws, the count of staged emails is still returned. */
  function FinishPass(db: Store, p: Prepared, tokens: nat -> string, now: DateTime): (r: SyncResult)
    requires p.account < |db.accounts|
    ensures !r.committed ==> r.store == db
    ensures r.committed ==>
              && r.store.accounts == MarkSynced(db.accounts, p.account, now)
              && |r.store.emails| == |db.emails| + r.count
              && r.store.emails[..|db.emails|] == db.emails
    ensures |r.trace| == r.count + 1 && r.count <= |p.summaries|
    ensures r.trace[0] == Progress(0, |p.summaries|, FoundEmails(|p.summaries|))
  {
    var total := |p.summaries|;
    var st := ProcessAll(ContextOf(db, p, tokens, now), Start, p.summaries);
    var trace := [Progress(0, total, FoundEmails(total))] + st.trace;
    match Commit(db.emails, st.staged)
    case None => SyncResult(|st.staged|, db, trace, false)
    case Some(emails) => SyncResult(|st.staged|, Store(emails, MarkSynced(db.accounts, p.account, now)), trace, true)
  }

  /** `SyncEmailsAsync(accountId, fullSync, progress)`. */
  function SyncEmails(db: Store, accountId: int, fullSync: bool, session: Session,
                      tokens: nat -> string, now: DateTime): (r: SyncResult)
    ensures !r.committed ==> r.store == db
    ensures r.committed ==>
              && FindAccount(db.accounts, accountId).Some?
              && r.store.accounts == MarkSynced(db.accounts, FindAccount(db.accounts, accountId).value, now)
              && |r.store.emails| == |db.emails| + r.count
              && r.store.emails[..|db.emails|] == db.emails
    ensures r.trace == [] ==> r.count == 0 && r.store == db
    ensures r.trace != [] ==>
              && |r.trace| == r.count + 1
              && r.trace[0] == Progress(0, r.trace[0].total, FoundEmails(r.trace[0].total))
              && 0 < r.trace[0].total
              && r.count <= r.trace[0].total
  {
    match Prepare(db, accountId, fullSync, session)
    case None => NoWork(db)
    case Some(p) => FinishPass(db, p, tokens, now)
  }
}

=== FILE: sync_corrected.dfy ===
/** The batch-save failure on a repeated Message-ID, and the pass with the
    dedup query extended to the emails already staged in the same pass. */
module SyncCorrected {
  import opened Wrappers
  import opened Models
  import opened Remote
  import opened Window
  import opened Normalizer
  import opened Dedup
  import opened Sync
  import opened SyncLemmas

  // ----- the pass as written -----

  /** A message in the inbox twice, under two UIDs. */
  function Copy(): RawMessage {
    RawMessage(Some("<1@example.org>"), "ann@example.org", "bob@example.org", Some("hello"),
               DateTimeOffset(1000, 0), Some("hi"), None, [])
  }

  function TwoCopies(): Mailbox {
    Mailbox([1, 2], (w: seq<Uid>) => Some(w), (u: Uid) => Fetched(Copy()))
  }

  function OneAccount(): Store {
    Store([], [EmailAccount(7, "work", "bob@example.org", "imap.example.org", 993, "", true, 0, None)])
  }

  function CopyEmail(): Email {
    BuildEmail(Copy(), "<1@example.org>", 5000)
  }

  /** The token stream of these passes; no token is drawn, since the
      message has a Message-ID. */
  function Token(k: nat): string {
    "token"
  }

  function TwoCopiesContext(): PassContext {
    ContextOf(OneAccount(), Prepared(0, TwoCopies(), [1, 2]), Token, 5000)
  }

  /** The full pass over the two copies reaches its loop with both UIDs. */
  lemma TwoCopiesPrepared()
    ensures Prepare(OneAccount(), 7, true, Connected(TwoCopies())) == Some(Prepared(0, TwoCopies(), [1, 2]))
  {
    assert FindAccount(OneAccount().accounts, 7) == Some(0);
    assert SelectWindow([1, 2], true, []) == [1, 2];
  }

  /** Either copy, looked up against an empty table, is staged. */
  lemma CopyStagedAgainstEmpty(ctx: PassContext, used: nat, uid: Uid)
    requires ctx.saved == [] && ctx.inbox == TwoCopies() && ctx.now == 5000 && uid in {1, 2}
    ensures ProcessMessage(ctx, used, uid) == (Staged(CopyEmail()), used)
  {
  }

  /** As written, the loop stages both copies: the dedup query does not
      see the first, which is only staged. */
  lemma BothCopiesStaged()
    ensures ProcessAll(TwoCopiesContext(), Start, [1, 2]).staged == [CopyEmail(), CopyEmail()]
  {
    var ctx := TwoCopiesContext();
    var e := CopyEmail();
    assert [1, 2][..1] == [1];
    CopyStagedAgainstEmpty(ctx, 0, 1);
    CopyStagedAgainstEmpty(ctx, 0, 2);
    assert ProcessAll(ctx, Start, [1]).staged == [e];
  }

  /** As written, both copies are staged, the batch save violates the
      unique index, nothing is stored, `LastSync` stays unset, and the pass
      still reports 2 new emails. */
  lemma DuplicateIdLosesBatch()
    ensures var r := SyncEmails(OneAccount(), 7, true, Connected(TwoCopies()), Token, 5000);
            && r.count == 2
            && !r.committed
            && r.store == OneAccount()
  {
    var p := Prepared(0, TwoCopies(), [1, 2]);
    var e := CopyEmail();
    TwoCopiesPrepared();
    var r := SyncEmails(OneAccount(), 7, true, Connected(TwoCopies()), Token, 5000);
    assert r == FinishPass(OneAccount(), p, Token, 5000);
    assert ContextOf(OneAccount(), p, Token, 5000) == TwoCopiesContext();
    BothCopiesStaged();
    assert InsertConflicts([], [e, e]) by {
      assert [e, e][1].messageId == [e, e][0].messageId;
    }
    assert Commit([], [e, e]).None?;
  }

  // ----- the corrected pass -----

  /** The loop body with the dedup query run against the saved emails and
      the emails staged so far. */
  function CorrectedStep(ctx: PassContext, st: PassState, uid: Uid): PassState {
    Step(ctx.(saved := ctx.saved + st.staged), st, uid)
  }

  /** The corrected loop. */
  function CorrectedProcessAll(ctx: PassContext, st: PassState, uids: seq<Uid>): (r: PassState)
    ensures st.staged <= r.staged
    ensures |r.staged| <= |st.staged| + |uids|
    decreases |uids|
  {
    if |uids| == 0 then st
    else CorrectedStep(ctx, CorrectedProcessAll(ctx, st, uids[..|uids| - 1]), uids[|uids| - 1])
  }

  /** The staged emails use ids that are new to the saved ones and
      pairwise distinct. */
  predicate DistinctNewIds(saved: seq<Email>, staged: seq<Email>) {
    && (forall i :: 0 <= i < |staged| ==> staged[i].messageId !in MessageIds(saved))
    && (forall i, j :: 0 <= i < j < |staged| ==> staged[i].messageId != staged[j].messageId)
  }

  /** The corrected loop stages only ids new to the table and to each other. */
  lemma {:induction false} CorrectedIdsDistinct(ctx: PassContext, uids: seq<Uid>)
    ensures DistinctNewIds(ctx.saved, CorrectedProcessAll(ctx, Start, uids).staged)
    decreases |uids|
  {
    if |uids| > 0 {
      var n := |uids| - 1;
      CorrectedIdsDistinct(ctx, uids[..n]);
      var prev := CorrectedProcessAll(ctx, Start, uids[..n]);
      var ctx' := ctx.(saved := ctx.saved + prev.staged);
      var (outcome, _) := ProcessMessage(ctx', prev.tokensUsed, uids[n]);
      if outcome.Staged? {
        var e := outcome.email;
        var raw := ctx.inbox.fetch(uids[n]).message;
        NewRecordShape(raw, ctx.tokens(prev.tokensUsed), ctx.now);
        var staged := prev.staged + [e];
        assert CorrectedProcessAll(ctx, Start, uids).staged == staged;
        forall s | s in ctx.saved + prev.staged
          ensures s.messageId != e.messageId
        {
          assert !SameMessage(s, e.messageId, raw);
        }
        assert e.messageId !in MessageIds(ctx.saved) by {
          forall s | s in ctx.saved
            ensures s.messageId != e.messageId
          {
            assert s in ctx.saved + prev.staged;
          }
        }
        forall i, j | 0 <= i < j < |staged|
          ensures staged[i].messageId != staged[j].messageId
        {
          if j == |prev.staged| {
            assert staged[i] in ctx.saved + prev.staged;
          }
        }
      }
    }
  }

  /** The corrected save-and-checkpoint step. */
  function CorrectedFinishPass(db: Store, p: Prepared, tokens: nat -> string, now: DateTime): (r: SyncResult)
    requires p.account < |db.accounts|
  {
    var total := |p.summaries|;
    var st := CorrectedProcessAll(ContextOf(db, p, tokens, now), Start, p.summaries);
    var trace := [Progress(0, total, FoundEmails(total))] + st.trace;
    match Commit(db.emails, st.staged)
    case None => SyncResult(|st.staged|, db, trace, false)
    case Some(emails) => SyncResult(|st.staged|, Store(emails, MarkSynced(db.accounts, p.account, now)), trace, true)
  }

  /** `SyncEmailsAsync` with the corrected dedup. */
  function CorrectedSyncEmails(db: Store, accountId: int, fullSync: bool, session: Session,
                       tokens: nat -> string, now: DateTime): SyncResult
  {
    match Prepare(db, accountId, fullSync, session)
    case None => NoWork(db)
    case Some(p) => CorrectedFinishPass(db, p, tokens, now)
  }

  /** With the corrected dedup, every pass that reaches its loop saves its
      batch and advances `LastSync`, and the count it returns is exactly the
      number of rows it added; the unique index keeps holding. */
  lemma CorrectedPassCommits(db: Store, accountId: int, fullSync: bool, session: Session,
                             tokens: nat -> string, now: DateTime)
    requires UniqueMessageIds(db.emails)
    ensures var r := CorrectedSyncEmails(db, accountId, fullSync, session, tokens, now);
            && (Prepare(db, accountId, fullSync, session).Some? <==> r.committed)
            && |r.store.emails| == |db.emails| + r.count
            && r.store.emails[..|db.emails|] == db.emails
            && UniqueMessageIds(r.store.emails)
            && (r.committed ==>
                  r.store.accounts == MarkSynced(db.accounts, FindAccount(db.accounts, accountId).value, now))
  {
    match Prepare(db, accountId, fullSync, session)
    case None =>
    case Some(p) =>
      var ctx := ContextOf(db, p, tokens, now);
      var st := CorrectedProcessAll(ctx, Start, p.summaries);
      CorrectedIdsDistinct(ctx, p.summaries);
      assert !InsertConflicts(db.emails, st.staged) by {
        forall i | 0 <= i < |st.staged|
          ensures forall e :: e in db.emails ==> e.messageId != st.staged[i].messageId
          ensures forall j :: 0 <= j < |st.staged| && j != i ==> st.staged[j].messageId != st.staged[i].messageId
        {
          forall e | e in db.emails
            ensures e.messageId != st.staged[i].messageId
          {
            assert e.messageId in MessageIds(db.emails);
          }
        }
      }
      CommitKeepsUniqueIds(db.emails, st.staged);
  }

  /** The corrected loop over the two copies stages the first copy only:
      the second is found among the staged emails. */
  lemma CorrectedStagesOneCopy()
    ensures CorrectedProcessAll(TwoCopiesContext(), Start, [1, 2]).staged == [CopyEmail()]
  {
    var ctx := TwoCopiesContext();
    var e := CopyEmail();
    assert [1, 2][..1] == [1];
    CopyStagedAgainstEmpty(ctx, 0, 1);
    var st1 := CorrectedProcessAll(ctx, Start, [1]);
    assert st1.staged == [e];
    assert SameMessage(e, "<1@example.org>", Copy());
    assert FindExisting([e], "<1@example.org>", Copy()).Some?;
  }

  /** On the inbox holding two copies, the corrected pass stores one email
      and reports one. */
  lemma CorrectedKeepsOneCopy()
    ensures var r := CorrectedSyncEmails(OneAccount(), 7, true, Connected(TwoCopies()), Token, 5000);
            && r.count == 1
            && r.committed
            && |r.store.emails| == 1
  {
    var p := Prepared(0, TwoCopies(), [1, 2]);
    TwoCopiesPrepared();
    var r := CorrectedSyncEmails(OneAccount(), 7, true, Connected(TwoCopies()), Token, 5000);
    assert r == CorrectedFinishPass(OneAccount(), p, Token, 5000);
    assert ContextOf(OneAccount(), p, Token, 5000) == TwoCopiesContext();
    CorrectedStagesOneCopy();
    assert r.count == 1;
    CorrectedPassCommits(OneAccount(), 7, true, Connected(TwoCopies()), Token, 5000);
  }
}

=== FILE: sync_lemmas.dfy ===
/** Properties of the sync pass: dedup, failure isolation, progress order,
    commit order, the unique index, and a second pass finding nothing new. */
module SyncLemmas {
  import opened Wrappers
  import opened Models
  import opened Remote
  import opened Window
  import opened Normalizer
  import opened Dedup
  import opened Sync

  /** `e` differs from every email of `saved` on its id and on its
      (From, Subject, ReceivedDate) triple. */
  predicate NewTo(saved: seq<Email>, e: Email) {
    forall s :: s in saved ==>
      && s.messageId != e.messageId
      && !(s.from == e.from && s.subject == e.subject && s.receivedDate == e.receivedDate)
  }

  /** The ids a set of emails uses. */
  function MessageIds(emails: seq<Email>): set<string> {
    set e | e in emails :: e.messageId
  }

  /** Every token of the stream is distinct from every stored id. */
  ghost predicate FreshTokens(tokens: nat -> string, emails: seq<Email>) {
    forall k: nat :: tokens(k) !in MessageIds(emails)
  }

  /** Some email of `emails` matches `raw` on its triple, or on its header
      id: whatever token is drawn, the dedup query finds it. */
  predicate Recognised(emails: seq<Email>, raw: RawMessage) {
    || (exists e :: e in emails && e.from == raw.from && e.subject == raw.subject.GetOr("")
                  && e.receivedDate == raw.date.dateTime)
    || (raw.messageId.Some? && exists e :: e in emails && e.messageId == raw.messageId.value)
  }

  /** A summary that can be downloaded. */
  predicate Downloadable(inbox: Mailbox, uid: Uid) {
    uid != InvalidUid && inbox.fetch(uid).Fetched?
  }

  /** The number of downloadable summaries. */
  function CountDownloadable(inbox: Mailbox, uids: seq<Uid>): (n: nat)
    ensures n <= |uids|
  {
    if |uids| == 0 then 0
    else CountDownloadable(inbox, uids[..|uids| - 1]) + (if Downloadable(inbox, uids[|uids| - 1]) then 1 else 0)
  }

  // ----- the loop -----

  /** Processing a concatenation is processing its parts one after the other. */
  lemma {:induction false} ProcessAllAppend(ctx: PassContext, st: PassState, a: seq<Uid>, b: seq<Uid>)
    ensures ProcessAll(ctx, st, a + b) == ProcessAll(ctx, ProcessAll(ctx, st, a), b)
    decreases |b|
  {
    if |b| == 0 {
      assert a + b == a;
    } else {
      var b' := b[..|b| - 1];
      ProcessAllAppend(ctx, st, a, b');
      assert (a + b)[..|a + b| - 1] == a + b';
      assert (a + b)[|a + b| - 1] == b[|b| - 1];
    }
  }

  /** Failure isolation: a summary with an invalid UID, or whose download
      throws, has the same effect as no summary at all; the loop goes on
      with the rest exactly as if it were absent. */
  lemma FailedSummaryIsInert(ctx: PassContext, st: PassState, a: seq<Uid>, u: Uid, b: seq<Uid>)
    requires u == InvalidUid || ctx.inbox.fetch(u).FetchFailed?
    ensures ProcessAll(ctx, st, a + [u] + b) == ProcessAll(ctx, st, a + b)
  {
    ProcessAllAppend(ctx, st, a + [u], b);
    ProcessAllAppend(ctx, st, a, [u]);
    ProcessAllAppend(ctx, st, a, b);
    assert [u][..0] == [];
  }

  /** Only downloadable summaries contribute, at most one email each. */
  lemma {:induction false} StagedAtMostDownloadable(ctx: PassContext, st: PassState, uids: seq<Uid>)
    ensures |ProcessAll(ctx, st, uids).staged| <= |st.staged| + CountDownloadable(ctx.inbox, uids)
    decreases |uids|
  {
    if |uids| > 0 {
      StagedAtMostDownloadable(ctx, st, uids[..|uids| - 1]);
    }
  }

  /** The reports after the first: the k-th staged email is reported as
      `(k + 1, total)` with its subject. */
  lemma {:induction false} TraceReportsStaged(ctx: PassContext, uids: seq<Uid>)
    ensures var st := ProcessAll(ctx, Start, uids);
            && |st.trace| == |st.staged|
            && forall k :: 0 <= k < |st.trace| ==>
                 st.trace[k] == Progress(k + 1, ctx.total, ProcessingEmail(k + 1, ctx.total, st.staged[k].subject))
    decreases |uids|
  {
    if |uids| > 0 {
      TraceReportsStaged(ctx, uids[..|uids| - 1]);
    }
  }

  /** Dedup: every staged email is new to the saved emails, and is unread. */
  lemma {:induction false} StagedAreNew(ctx: PassContext, st: PassState, uids: seq<Uid>)
    requires forall e :: e in st.staged ==> NewTo(ctx.saved, e) && !e.isRead
    ensures forall e :: e in ProcessAll(ctx, st, uids).staged ==> NewTo(ctx.saved, e) && !e.isRead
    decreases |uids|
  {
    if |uids| > 0 {
      var prev := ProcessAll(ctx, st, uids[..|uids| - 1]);
      StagedAreNew(ctx, st, uids[..|uids| - 1]);
      var (outcome, _) := ProcessMessage(ctx, prev.tokensUsed, uids[|uids| - 1]);
      if outcome.Staged? {
        var raw := ctx.inbox.fetch(uids[|uids| - 1]).message;
        var e := outcome.email;
        NewRecordShape(raw, ctx.tokens(prev.tokensUsed), ctx.now);
        assert NewTo(ctx.saved, e) by {
          forall s | s in ctx.saved
            ensures s.messageId != e.messageId
            ensures !(s.from == e.from && s.subject == e.subject && s.receivedDate == e.receivedDate)
          {
            assert !SameMessage(s, e.messageId, raw);
          }
        }
      }
    }
  }

  // ----- the whole pass -----

  /** A missing account, an unreachable server, an empty inbox, a throwing
      or empty summary fetch: the pass returns 0 and changes nothing. */
  lemma SyncEarlyReturns(db: Store, accountId: int, fullSync: bool, session: Session,
                         tokens: nat -> string, now: DateTime)
    requires || FindAccount(db.accounts, accountId).None?
             || session.Unreachable?
             || |session.inbox.uids| == 0
             || session.inbox.summaries(SelectWindow(session.inbox.uids, fullSync, db.emails)).None?
             || session.inbox.summaries(SelectWindow(session.inbox.uids, fullSync, db.emails)) == Some([])
    ensures SyncEmails(db, accountId, fullSync, session, tokens, now) == SyncResult(0, db, [], false)
  {
  }

  /** The progress reports: a first report `(0, total)`, then one report per
      staged email with `current` counting 1, 2, ... up to at most `total`. */
  lemma SyncProgressOrder(db: Store, accountId: int, fullSync: bool, session: Session,
                          tokens: nat -> string, now: DateTime)
    ensures var r := SyncEmails(db, accountId, fullSync, session, tokens, now);
            r.trace != [] ==>
              && r.trace[0].status == FoundEmails(r.trace[0].total)
              && forall k :: 0 <= k < |r.trace| ==>
                   r.trace[k].current == k <= r.trace[k].total == r.trace[0].total
  {
    var r := SyncEmails(db, accountId, fullSync, session, tokens, now);
    if r.trace != [] {
      var p := Prepare(db, accountId, fullSync, session).value;
      TraceReportsStaged(ContextOf(db, p, tokens, now), p.summaries);
    }
  }

  /** What a successful batch save leaves: the saved emails followed by the
      staged ones with their new keys, none of them conflicting. */
  lemma CommittedStore(db: Store, p: Prepared, tokens: nat -> string, now: DateTime)
    requires p.account < |db.accounts|
    requires FinishPass(db, p, tokens, now).committed
    ensures var st := ProcessAll(ContextOf(db, p, tokens, now), Start, p.summaries);
            && !InsertConflicts(db.emails, st.staged)
            && FinishPass(db, p, tokens, now).store.emails == db.emails + AssignIds(st.staged, MaxId(db.emails) + 1)
            && FinishPass(db, p, tokens, now).store.accounts == MarkSynced(db.accounts, p.account, now)
  {
  }

  /** Rows added by a pass are new to the store it started from: known
      messages are never inserted again, and stored rows are never
      modified. New rows are unread and get keys above every key in use. */
  lemma SyncAddsOnlyNew(db: Store, accountId: int, fullSync: bool, session: Session,
                        tokens: nat -> string, now: DateTime)
    ensures var r := SyncEmails(db, accountId, fullSync, session, tokens, now);
            && r.store.emails[..|db.emails|] == db.emails
            && forall k :: |db.emails| <= k < |r.store.emails| ==> AddedRow(db.emails, r.store.emails[k])
  {
    var r := SyncEmails(db, accountId, fullSync, session, tokens, now);
    if r.committed {
      var p := Prepare(db, accountId, fullSync, session).value;
      assert r == FinishPass(db, p, tokens, now);
      FinishAddsOnlyNew(db, p, tokens, now);
    }
  }

  /** A row a pass added: new to the saved emails, unread, keyed above
      every saved key. */
  predicate AddedRow(saved: seq<Email>, row: Email) {
    && NewTo(saved, row.(id := 0))
    && !row.isRead
    && forall e :: e in saved ==> e.id < row.id
  }

  /** Every row of `all` past the `saved` ones is an added row. */
  predicate OnlyAddedRows(saved: seq<Email>, all: seq<Email>) {
    forall k :: |saved| <= k < |all| ==> AddedRow(saved, all[k])
  }

  /** `SyncAddsOnlyNew` for a pass that reached its loop. */
  lemma FinishAddsOnlyNew(db: Store, p: Prepared, tokens: nat -> string, now: DateTime)
    requires p.account < |db.accounts|
    ensures var r := FinishPass(db, p, tokens, now);
            OnlyAddedRows(db.emails, r.store.emails)
  {
    if FinishPass(db, p, tokens, now).committed {
      CommittedAddsOnlyNew(db, p, tokens, now);
    } else {
      FailedSaveAddsNothing(db, p, tokens, now);
    }
  }

  /** `FinishAddsOnlyNew` when the batch save succeeded. */
  lemma CommittedAddsOnlyNew(db: Store, p: Prepared, tokens: nat -> string, now: DateTime)
    requires p.account < |db.accounts|
    requires FinishPass(db, p, tokens, now).committed
    ensures OnlyAddedRows(db.emails, FinishPass(db, p, tokens, now).store.emails)
  {
    CommittedEmails(db, p, tokens, now);
    PassAddsOnlyNew(db, p, tokens, now, FinishPass(db, p, tokens, now).store.emails);
  }

  /** A failed batch save adds no row. */
  lemma FailedSaveAddsNothing(db: Store, p: Prepared, tokens: nat -> string, now: DateTime)
    requires p.account < |db.accounts|
    requires !FinishPass(db, p, tokens, now).committed
    ensures OnlyAddedRows(db.emails, FinishPass(db, p, tokens, now).store.emails)
  {
  }

  /** Appending the emails the loop staged, with their new keys, adds only
      new rows. */
  lemma PassAddsOnlyNew(db: Store, p: Prepared, tokens: nat -> string, now: DateTime, all: seq<Email>)
    requires all == db.emails + AssignIds(ProcessAll(ContextOf(db, p, tokens, now), Start, p.summaries).staged,
                                          MaxId(db.emails) + 1)
    ensures OnlyAddedRows(db.emails, all)
  {
    var ctx := ContextOf(db, p, tokens, now);
    assert ctx.saved == db.emails;
    StagedAreNew(ctx, Start, p.summaries);
    CommitAddsOnlyNew(db.emails, ProcessAll(ctx, Start, p.summaries).staged);
  }

  /** The emails a successful batch save leaves: the saved ones followed by
      the staged ones with their new keys. */
  lemma CommittedEmails(db: Store, p: Prepared, tokens: nat -> string, now: DateTime)
    requires p.account < |db.accounts|
    requires FinishPass(db, p, tokens, now).committed
    ensures FinishPass(db, p, tokens, now).store.emails ==
              db.emails + AssignIds(ProcessAll(ContextOf(db, p, tokens, now), Start, p.summaries).staged,
                                    MaxId(db.emails) + 1)
  {
  }

  /** Staged emails that are new and unread become added rows once the
      save appends them with their keys. */
  lemma CommitAddsOnlyNew(saved: seq<Email>, staged: seq<Email>)
    requires forall e :: e in staged ==> NewTo(saved, e) && !e.isRead
    ensures var all := saved + AssignIds(staged, MaxId(saved) + 1);
            OnlyAddedRows(saved, all)
  {
    var added := AssignIds(staged, MaxId(saved) + 1);
    var all := saved + added;
    forall k | |saved| <= k < |all|
      ensures AddedRow(saved, all[k])
    {
      var i := k - |saved|;
      assert all[k] == added[i];
      assert staged[i] in staged;
      NewToIgnoresKey(saved, staged[i], added[i]);
    }
  }

  /** `NewTo` does not look at the primary key. */
  lemma NewToIgnoresKey(saved: seq<Email>, e: Email, e': Email)
    requires NewTo(saved, e)
    requires e' == e.(id := e'.id)
    ensures NewTo(saved, e'.(id := 0))
  {
  }

  /** The unique index on MessageId holds after every pass that held it
      before. */
  lemma SyncKeepsUniqueIds(db: Store, accountId: int, fullSync: bool, session: Session,
                           tokens: nat -> string, now: DateTime)
    requires UniqueMessageIds(db.emails)
    ensures UniqueMessageIds(SyncEmails(db, accountId, fullSync, session, tokens, now).store.emails)
  {
    var r := SyncEmails(db, accountId, fullSync, session, tokens, now);
    if r.committed {
      var p := Prepare(db, accountId, fullSync, session).value;
      var st := ProcessAll(ContextOf(db, p, tokens, now), Start, p.summaries);
      CommittedStore(db, p, tokens, now);
      CommitKeepsUniqueIds(db.emails, st.staged);
    }
  }

  /** A successful batch insert keeps message ids unique. */
  lemma CommitKeepsUniqueIds(saved: seq<Email>, staged: seq<Email>)
    requires UniqueMessageIds(saved)
    requires !InsertConflicts(saved, staged)
    ensures UniqueMessageIds(Commit(saved, staged).value)
  {
    var all := Commit(saved, staged).value;
    var added := AssignIds(staged, MaxId(saved) + 1);
    assert all == saved + added;
    forall i, j | 0 <= i < j < |all|
      ensures all[i].messageId != all[j].messageId
    {
      if j >= |saved| {
        var j' := j - |saved|;
        assert all[j].messageId == staged[j'].messageId;
        if i < |saved| {
          assert all[i] in saved;
        } else {
          assert all[i].messageId == staged[i - |saved|].messageId;
        }
      }
    }
  }

  // ----- a second pass -----

  /** `Recognised` only grows with the set of emails. */
  lemma RecognisedMonotone(a: seq<Email>, b: seq<Email>, raw: RawMessage)
    requires Recognised(a, raw)
    requires forall e :: e in a ==> e in b
    ensures Recognised(b, raw)
  {
  }

  /** Every downloadable summary of a pass is recognised by the saved
      emails plus the staged ones, provided the tokens it draws are fresh. */
  lemma {:induction false} PassRecognisesAll(ctx: PassContext, uids: seq<Uid>)
    requires FreshTokens(ctx.tokens, ctx.saved)
    ensures var st := ProcessAll(ctx, Start, uids);
            forall k :: 0 <= k < |uids| && Downloadable(ctx.inbox, uids[k]) ==>
              Recognised(ctx.saved + st.staged, ctx.inbox.fetch(uids[k]).message)
    decreases |uids|
  {
    if |uids| > 0 {
      var n := |uids| - 1;
      var prefix := uids[..n];
      PassRecognisesAll(ctx, prefix);
      var prev := ProcessAll(ctx, Start, prefix);
      var st := ProcessAll(ctx, Start, uids);
      assert st == Step(ctx, prev, uids[n]);
      if Downloadable(ctx.inbox, uids[n]) {
        StepRecognises(ctx, prev, uids[n]);
      }
      assert prev.staged <= st.staged;
      assert forall e :: e in ctx.saved + prev.staged ==> e in ctx.saved + st.staged;
      forall k | 0 <= k < n && Downloadable(ctx.inbox, uids[k])
        ensures Recognised(ctx.saved + st.staged, ctx.inbox.fetch(uids[k]).message)
      {
        assert uids[k] == prefix[k] && 0 <= k < |prefix|;
        assert Recognised(ctx.saved + prev.staged, ctx.inbox.fetch(prefix[k]).message);
        RecognisedMonotone(ctx.saved + prev.staged, ctx.saved + st.staged, ctx.inbox.fetch(uids[k]).message);
      }
    }
  }

  /** One step of the loop leaves its own message recognised, provided the
      token it may draw is fresh. */
  lemma StepRecognises(ctx: PassContext, prev: PassState, u: Uid)
    requires FreshTokens(ctx.tokens, ctx.saved)
    requires Downloadable(ctx.inbox, u)
    ensures Recognised(ctx.saved + Step(ctx, prev, u).staged, ctx.inbox.fetch(u).message)
  {
    var raw := ctx.inbox.fetch(u).message;
    var st := Step(ctx, prev, u);
    var (outcome, _) := ProcessMessage(ctx, prev.tokensUsed, u);
    var id := ResolveMessageId(raw, ctx.tokens(prev.tokensUsed));
    if outcome.Staged? {
      var e := outcome.email;
      NewRecordShape(raw, ctx.tokens(prev.tokensUsed), ctx.now);
      assert st.staged == prev.staged + [e];
      assert e in ctx.saved + st.staged;
    } else {
      assert outcome == Skipped(AlreadyStored);
      var s :| s in ctx.saved && SameMessage(s, id, raw);
      assert s in ctx.saved + st.staged;
      if raw.messageId.None? {
        assert s.messageId in MessageIds(ctx.saved);
        assert ctx.tokens(prev.tokensUsed) !in MessageIds(ctx.saved);
      }
    }
  }

  /** When the saved emails recognise every downloadable summary, the pass
      stages nothing. */
  lemma {:induction false} RecognisedStagesNothing(ctx: PassContext, st: PassState, uids: seq<Uid>)
    requires forall k :: 0 <= k < |uids| && Downloadable(ctx.inbox, uids[k]) ==>
               Recognised(ctx.saved, ctx.inbox.fetch(uids[k]).message)
    ensures ProcessAll(ctx, st, uids).staged == st.staged
    decreases |uids|
  {
    if |uids| > 0 {
      var n := |uids| - 1;
      RecognisedStagesNothing(ctx, st, uids[..n]);
      var prev := ProcessAll(ctx, st, uids[..n]);
      var u := uids[n];
      if Downloadable(ctx.inbox, u) {
        var raw := ctx.inbox.fetch(u).message;
        var id := ResolveMessageId(raw, ctx.tokens(prev.tokensUsed));
        assert Recognised(ctx.saved, raw);
        var s :| s in ctx.saved && SameMessage(s, id, raw);
      }
    }
  }

  /** Giving staged emails their keys changes neither their ids nor their
      triples, so whatever they recognise stays recognised. */
  lemma RecognisedAfterAssign(saved: seq<Email>, staged: seq<Email>, next: int, raw: RawMessage)
    requires Recognised(saved + staged, raw)
    ensures Recognised(saved + AssignIds(staged, next), raw)
  {
    var added := AssignIds(staged, next);
    var all := saved + added;
    if exists e :: e in saved + staged && e.from == raw.from && e.subject == raw.subject.GetOr("")
                   && e.receivedDate == raw.date.dateTime {
      var e :| e in saved + staged && e.from == raw.from && e.subject == raw.subject.GetOr("")
               && e.receivedDate == raw.date.dateTime;
      if e !in saved {
        var k :| 0 <= k < |staged| && staged[k] == e;
        assert added[k] in all;
      }
    } else {
      var e :| e in saved + staged && e.messageId == raw.messageId.value;
      if e !in saved {
        var k :| 0 <= k < |staged| && staged[k] == e;
        assert added[k] in all;
      }
    }
  }

  /** Marking the account synced does not move it. */
  lemma {:induction false} FindAccountAfterMarkSynced(accounts: seq<EmailAccount>, a: nat, now: DateTime, id: int)
    requires a < |accounts|
    ensures FindAccount(MarkSynced(accounts, a, now), id) == FindAccount(accounts, id)
  {
    FindAccountByKeys(accounts, MarkSynced(accounts, a, now), id);
  }

  /** Dedup idempotence: after a pass whose batch save succeeded, a second
      pass over the same mailbox, in the same mode, stages nothing, keeps
      the emails as they are and completes. The first pass's tokens must be
      fresh, as `Guid.NewGuid()` values are. */
  lemma SecondPassFindsNothing(db: Store, accountId: int, fullSync: bool, session: Session,
                               tokens1: nat -> string, now1: DateTime,
                               tokens2: nat -> string, now2: DateTime)
    requires FreshTokens(tokens1, db.emails)
    requires SyncEmails(db, accountId, fullSync, session, tokens1, now1).committed
    ensures var r1 := SyncEmails(db, accountId, fullSync, session, tokens1, now1);
            var r2 := SyncEmails(r1.store, accountId, fullSync, session, tokens2, now2);
            && r2.count == 0
            && r2.committed
            && r2.store.emails == r1.store.emails
  {
    var p := Prepare(db, accountId, fullSync, session).value;
    var r1 := FinishPass(db, p, tokens1, now1);
    assert SyncEmails(db, accountId, fullSync, session, tokens1, now1) == r1;
    CommittedStore(db, p, tokens1, now1);
    FindAccountAfterMarkSynced(db.accounts, p.account, now1, accountId);
    WindowIgnoresStore(p.inbox.uids, fullSync, db.emails, r1.store.emails);
    assert Prepare(r1.store, accountId, fullSync, session) == Some(p);
    FinishSecondPass(db, p, tokens1, now1, tokens2, now2);
  }

  /** `SecondPassFindsNothing` for a pass that reached its loop. */
  lemma FinishSecondPass(db: Store, p: Prepared, tokens1: nat -> string, now1: DateTime,
                         tokens2: nat -> string, now2: DateTime)
    requires p.account < |db.accounts|
    requires FreshTokens(tokens1, db.emails)
    requires FinishPass(db, p, tokens1, now1).committed
    ensures var r1 := FinishPass(db, p, tokens1, now1);
            p.account < |r1.store.accounts| &&
            var r2 := FinishPass(r1.store, p, tokens2, now2);
            && r2.count == 0
            && r2.committed
            && r2.store.emails == r1.store.emails
  {
    var r1 := FinishPass(db, p, tokens1, now1);
    CommittedStore(db, p, tokens1, now1);
    RecognisedAfterPass(db, p, tokens1, now1);
    assert p.account < |r1.store.accounts|;
    NothingNewCommitsUnchanged(r1.store, p, tokens2, now2);
  }

  /** A pass over summaries the store already recognises stages nothing,
      saves an empty batch and leaves the emails as they are. */
  lemma NothingNewCommitsUnchanged(db: Store, p: Prepared, tokens: nat -> string, now: DateTime)
    requires p.account < |db.accounts|
    requires forall k :: 0 <= k < |p.summaries| && Downloadable(p.inbox, p.summaries[k]) ==>
               Recognised(db.emails, p.inbox.fetch(p.summaries[k]).message)
    ensures var r := FinishPass(db, p, tokens, now);
            r.count == 0 && r.committed && r.store.emails == db.emails
  {
    var ctx := ContextOf(db, p, tokens, now);
    RecognisedStagesNothing(ctx, Start, p.summaries);
    var st := ProcessAll(ctx, Start, p.summaries);
    assert st.staged == [];
    assert !InsertConflicts(db.emails, []);
    assert db.emails + AssignIds([], MaxId(db.emails) + 1) == db.emails;
    assert Commit(db.emails, st.staged) == Some(db.emails);
  }

  /** After a successful save, the store recognises every downloadable
      summary of the pass. */
  lemma RecognisedAfterPass(db: Store, p: Prepared, tokens: nat -> string, now: DateTime)
    requires p.account < |db.accounts|
    requires FreshTokens(tokens, db.emails)
    requires FinishPass(db, p, tokens, now).committed
    ensures forall k :: 0 <= k < |p.summaries| && Downloadable(p.inbox, p.summaries[k]) ==>
              Recognised(FinishPass(db, p, tokens, now).store.emails, p.inbox.fetch(p.summaries[k]).message)
  {
    var ctx := ContextOf(db, p, tokens, now);
    var st := ProcessAll(ctx, Start, p.summaries);
    CommittedStore(db, p, tokens, now);
    PassRecognisesAll(ctx, p.summaries);
    forall k | 0 <= k < |p.summaries| && Downloadable(p.inbox, p.summaries[k])
      ensures Recognised(db.emails + AssignIds(st.staged, MaxId(db.emails) + 1), p.inbox.fetch(p.summaries[k]).message)
    {
      RecognisedAfterAssign(db.emails, st.staged, MaxId(db.emails) + 1, p.inbox.fetch(p.summaries[k]).message);
    }
  }
}

=== FILE: window.dfy ===
/** Which UIDs a sync pass considers (EmailService.cs, `SyncEmailsAsync`). */
module Window {
  import opened Wrappers
  import opened Models
  import opened Remote

  /** Bound on a full sync's window. */
  const FullSyncLimit: nat := 1000

  /** Bound on an incremental sync's window. */
  const IncrementalLimit: nat := 50

  function Min(a: int, b: int): int {
    if a <= b then a else b
  }

  function Max(a: int, b: int): int {
    if a >= b then a else b
  }

  /** `OrderByDescending(e => e.ReceivedDate).FirstOrDefaultAsync()`: a most
      recently received email, if the store holds any. */
  function MostRecent(emails: seq<Email>): (r: Option<Email>)
    ensures r.None? <==> |emails| == 0
    ensures r.Some? ==> r.value in emails
    ensures r.Some? ==> forall e :: e in emails ==> e.receivedDate <= r.value.receivedDate
  {
    if |emails| == 0 then None
    else match MostRecent(emails[1..])
      case None => Some(emails[0])
      case Some(m) => if emails[0].receivedDate >= m.receivedDate then Some(emails[0]) else Some(m)
  }

  /** `Enumerable.TakeLast(n)`. */
  function TakeLast<T>(s: seq<T>, n: nat): seq<T> {
    if n >= |s| then s else s[|s| - n..]
  }

  /** The window of a pass: a full sync skips all but the last 1000 UIDs; an
      incremental sync takes the last 50, in both of its branches (with and
      without a previously synced email). */
  function SelectWindow(allUids: seq<Uid>, fullSync: bool, emails: seq<Email>): (w: seq<Uid>)
    ensures |w| == Min(|allUids|, if fullSync then FullSyncLimit else IncrementalLimit)
    ensures w == allUids[|allUids| - |w|..]
    ensures |allUids| > 0 ==> |w| > 0
  {
    if fullSync then
      var startIndex := Max(0, |allUids| - FullSyncLimit);
      allUids[startIndex..]
    else if MostRecent(emails).Some? then
      TakeLast(allUids, IncrementalLimit)
    else
      TakeLast(allUids, IncrementalLimit)
  }

  /** The local store does not influence the window. */
  lemma WindowIgnoresStore(allUids: seq<Uid>, fullSync: bool, emails: seq<Email>, emails': seq<Email>)
    ensures SelectWindow(allUids, fullSync, emails) == SelectWindow(allUids, fullSync, emails')
  {
  }

  /** Every UID of the window is a UID of the inbox, and the window keeps
      the inbox's order: position k of the window is position
      `n - |w| + k` of the inbox. */
  lemma WindowIsOrderedSubsequence(allUids: seq<Uid>, fullSync: bool, emails: seq<Email>)
    ensures var w := SelectWindow(allUids, fullSync, emails);
            forall k :: 0 <= k < |w| ==> w[k] == allUids[|allUids| - |w| + k]
  {
  }
}

=== FILE: wrappers.dfy ===
/** Nullable values of the source (`string?`, `DateTime?`, `FirstOrDefault`)
    are modelled with `Option`. */
module Wrappers {

  datatype Option<+T> = None | Some(value: T) {

    /** The value, or `default` when absent: the `??` operator. */
    function GetOr(default: T): T {
      match this
      case Some(v) => v
      case None => default
    }
  }
}
